=== FILE: README.md ===
# SmartCar-Care record store, modelled in Dafny

CarManage.py is a terminal application for a car-service shop. It keeps two
append-only lists: the registered cars and the booked service records. It
offers five commands over them:

- register a car;
- book a service from a fixed catalog of six priced services;
- list a car's service history;
- show a car's details;
- show shop-wide statistics.

This project models the decision logic of those commands as pure functions
over an immutable `Store(cars, services)`, and proves what each command
promises.

Modelling choices:

- **Commands.** Each command is a function from the store, "today" and the
  user's raw answers to a `Step`. A `Step` holds the store afterwards and
  the reply: a result or a `StoreError`. Every failure returns the store
  unchanged.
- **Dates.** Dates are integer day numbers. The source sorts the stored
  `YYYY-MM-DD` strings directly, and for the 30-day advisory and the weekly
  count it parses them with `strptime` and subtracts the resulting
  `datetime` from the current one. Well-formed date strings order the same
  way as the days they name, and `(now - date).days` is `today - date`,
  since the parsed date is midnight and `now` lies within day `today`.
- **Prices.** Prices are integer cents: 25.00 is 2500.
- **Raw answers.** Each answer gets the normalisation the source gives it,
  over ASCII. A car number is stripped and upper-cased. Model, make, year,
  colour and notes are only stripped. The answer to the advisory is neither
  stripped nor upper-cased: it is lower-cased and compared with "y".

Files (one module each):

| file | module | contents |
|---|---|---|
| results.dfy | Results | `Option`, `Result` |
| seqs.dfy | Seqs | list-comprehension filter and its lemmas |
| ascii.dfy | Ascii | `isalnum`, `isspace`, `upper`, `lower`, `strip` on ASCII |
| catalog.dfy | Catalog | `ServiceType` and its six entries |
| records.dfy | Records | `Car`, `ServiceRecord`, price sums, `to_dict` / `from_dict` |
| inputs.dfy | Inputs | car-number normalisation and validation, year parsing, confirmation |
| store.dfy | RecordStore | the store, lookup, `register_car`, `book_service`, store invariants |
| history.dfy | History | `view_service_history`, `check_car_details` |
| statistics.dfy | Statistics | `show_statistics` |
| scenarios.dfy | Scenarios | concrete runs of the commands |

Car numbers are compared ignoring case only. Before the duplicate check
`register_car` applies `strip()` and `upper()` to the number, and lookup
compares `lower()` forms; neither removes the `-` and space separators that
validation tolerates. So "ABC1234" and "ABC-1234" are two different cars:
`Scenarios.SeparatorsDistinguishCars` proves that the second registers
after the first.

## Model

| member | source | states |
|---|---|---|
| Catalog.CatalogWellFormed | CarManage.py:20-31 | The catalog has six entries in declaration order. Every service type is listed. Names are pairwise distinct, so a name identifies its entry. Every price is positive. |
| Records.TotalPriceAppend | CarManage.py:338 | The total price of two concatenated record lists is the sum of their totals. |
| Records.CarToDict | CarManage.py:45-46 | `to_dict` writes exactly the seven fields of `Car`. |
| Records.CarFromDict | CarManage.py:34-50 | `from_dict` succeeds iff every key is a `Car` field, every field without a default is present, and each value has its field's kind. The car read is the dictionary with `make`, `year` and `color` defaulting to "", 0 and "". |
| Records.CarDictRoundTrip | CarManage.py:45-50 | Reading back a written car gives the same car. |
| Records.CarDictFaithful | CarManage.py:45-50 | A complete dictionary that reads as a car is exactly the dictionary written for that car. |
| Records.ServiceToDict | CarManage.py:64-65 | `to_dict` writes exactly the seven fields of `ServiceRecord`. |
| Records.ServiceFromDict | CarManage.py:53-69 | `from_dict` succeeds iff every key is a `ServiceRecord` field, the five fields without a default are present, and each value has its field's kind. The record read is the dictionary with `status` defaulting to "Completed" and `notes` to "". |
| Records.ServiceDictRoundTrip | CarManage.py:64-69 | Reading back a written service record gives the same record. |
| Records.ServiceDictFaithful | CarManage.py:64-69 | A complete dictionary that reads as a record is exactly the dictionary written for it. |
| Records.EncodeCars | CarManage.py:95-96 | The saved car list has one dictionary per car, in order. |
| Records.DecodeCars | CarManage.py:112 | Loading fails iff some dictionary fails to read. On success, car i is what dictionary i reads as. |
| Records.CarsRoundTrip | CarManage.py:95-112 | Saving the cars and loading them back gives the same list. |
| Records.EncodeServices | CarManage.py:99-100 | The saved record list has one dictionary per record, in order. |
| Records.DecodeServices | CarManage.py:118 | Loading fails iff some dictionary fails to read. On success, record i is what dictionary i reads as. |
| Records.ServicesRoundTrip | CarManage.py:99-118 | Saving the service records and loading them back gives the same list. |
| Ascii.LeadingSpaces | CarManage.py:150 | The count is the length of the maximal whitespace prefix. |
| Ascii.TrailingStart | CarManage.py:150 | The position is the start of the maximal whitespace suffix. |
| Ascii.Strip | CarManage.py:150 | `strip()` returns a slice of its input. Only whitespace lies outside the slice. A non-empty result neither starts nor ends with whitespace. |
| Ascii.LowerOfUpper | CarManage.py:123-125 | Upper-casing a query first does not change the case-insensitive comparison. |
| Ascii.UpperIdempotent | CarManage.py:150 | Upper-casing twice is upper-casing once. |
| Ascii.UpperCaseInjective | CarManage.py:123-125 | Two upper-case strings that are equal ignoring case are equal. |
| Inputs.NormalizeCarNumber | CarManage.py:150 | A normalised car number has no lower-case letters, equals the stripped answer ignoring case, and is no longer than the raw answer. |
| Inputs.NormalizePinned | CarManage.py:150 | The normal form is the one upper-case string equal to the stripped answer ignoring case, so it is exactly `strip().upper()` of the answer. |
| Inputs.ValidCarNumberIff | CarManage.py:127-129 | A number is valid iff it has at least 3 characters, every character is a letter, a digit, `-` or a space, and at least one is a letter or a digit. So "---" is rejected. |
| Inputs.ValidCarNumberIgnoresCase | CarManage.py:127-129 | Upper- or lower-casing a number does not change whether it is valid. |
| Inputs.ParseYear | CarManage.py:164-165 | The year is at most 9999. It is non-zero only for an answer of exactly four digits; every other answer gives 0. |
| Inputs.FourDigits | CarManage.py:165 | A year up to 9999 is written as four digits. |
| Inputs.YearRoundTrip | CarManage.py:164-165 | Every year up to 9999, written with four digits, parses back to itself. |
| Inputs.YearDigitsRoundTrip | CarManage.py:164-165 | Every four-digit answer is the four-digit form of the year it parses to. |
| Inputs.ConfirmsIff | CarManage.py:266 | The advisory is confirmed exactly by the answers "y" and "Y". The answer is not stripped. |
| RecordStore.FirstMatchFrom | CarManage.py:123-125 | The result is the first index at or after k whose car matches the query, or the end of the list. |
| RecordStore.FindCar | CarManage.py:123-125 | Lookup finds nothing iff no car's number equals the query ignoring case. Otherwise it returns the first car that matches. |
| RecordStore.RegisterCar | CarManage.py:144-181 | An invalid normalised number is rejected, and only an invalid one. A valid number already present ignoring case is rejected as a duplicate. A rejection leaves the store unchanged. Registration succeeds iff the normalised number is valid and matches no stored car ignoring case. Success appends exactly one car, whose number no stored car shares. Records are untouched. The car has the normalised number, registration date today, the stripped answers, and the parsed year. |
| RecordStore.RecentDuplicatesNonEmpty | CarManage.py:257-264 | The list of recent duplicates is non-empty iff some record has the same exact number, the same service name and an age below 30 days. |
| RecordStore.BookService | CarManage.py:230-293 | Booking fails with "not registered" iff lookup finds no car, and with "invalid selection" iff a car is found and the menu number is outside 1..6. Declining means the advisory was raised and the answer is not "y"/"Y". Booking succeeds iff a car is found, the menu number is in 1..6, and the advisory is either not raised or confirmed. Every failure leaves the store unchanged. Success appends exactly one record, built from the chosen entry, the found car and today, with status "Completed" and the stripped notes. The advisory is raised exactly when the record is a recent duplicate. |
| RecordStore.FindCarUnique | CarManage.py:123-125 | With unique numbers, the car that lookup finds is the only car that matches. |
| RecordStore.FoundCarHasQueriedNumber | CarManage.py:221-222 | In a consistent store, the car found for a normalised number carries exactly that number. |
| RecordStore.AppendKeepsUnique | CarManage.py:156-180 | Appending a car whose number matches no stored car keeps numbers unique ignoring case. |
| RecordStore.AppendKeepsUpperCase | CarManage.py:150-180 | Appending a car with an upper-case number keeps all stored numbers upper case. |
| RecordStore.AppendCarKeepsNaming | CarManage.py:180 | Appending a car keeps every record naming a registered car. |
| RecordStore.RegisterPreservesConsistency | CarManage.py:144-181 | Registration keeps the store consistent. Car numbers stay unique ignoring case and upper case. Every record names a registered car and is priced from the catalog. |
| RecordStore.BookPreservesConsistency | CarManage.py:273-282 | Booking keeps the store consistent. The new record carries the exact number and model of a registered car, and a catalog name and price. |
| RecordStore.SecondRegistrationRejected | CarManage.py:150-158 | After a number is registered, registering it again in any case or padding is rejected as a duplicate. |
| RecordStore.DistinctRegistrationAccepted | CarManage.py:150-181 | After a registration, a valid number that matches no stored car ignoring case, including the one just registered, registers as a further car. |
| RecordStore.RebookingSameDayRaisesAdvisory | CarManage.py:257-267 | Booking the same service for the same car again on the same day raises the advisory. "y"/"Y" books a second record. Any other answer leaves the store unchanged. |
| History.InsertPermutes | CarManage.py:311 | Inserting a record adds exactly that record. |
| History.InsertOrdered | CarManage.py:311 | Inserting into a newest-first list keeps it newest first. |
| History.InsertInFront | CarManage.py:311 | A record later than all others goes in front, and no record of its day is behind it. |
| History.InsertStable | CarManage.py:311 | Insertion places a record behind the records of its own date. |
| History.InsertTotal | CarManage.py:316-324 | Insertion adds the record's price to the total. |
| History.SortFacts | CarManage.py:311 | The sort is newest first and a permutation. It keeps the booking order of each day's records, and it keeps the total. |
| History.StableOrderUnique | CarManage.py:311 | Two newest-first lists with the same records of each day, in the same order, are equal. |
| History.SortedMembers | CarManage.py:303-304 | A car's sorted listing holds exactly the store's records with its exact number. |
| History.SortedEmpty | CarManage.py:304-308 | The listing is empty iff no record carries the number. |
| History.ViewServiceHistory | CarManage.py:298-327 | The listing holds exactly the records whose number equals the normalised query, each as often as stored. It is newest first, and the records of one day keep their booking order. The total is the sum of those records' prices. An empty listing means no record carries the number. |
| History.HistoryIsStableSort | CarManage.py:304-311 | Any newest-first arrangement of the car's records that keeps each day's booking order is exactly the listing. |
| History.CheckCarDetails | CarManage.py:198-228 | Details are missing iff no car matches ignoring case. Otherwise they show the car lookup finds, the first stored car that matches, the number of records whose number equals the normalised query, and their total price. |
| History.DetailsAgreeWithHistory | CarManage.py:198-327 | The details and the history report the same number of services and the same total. |
| History.DetailsCountCarsOwnRecords | CarManage.py:218-222 | In a consistent store, the details count exactly the records that carry the found car's own number. |
| History.RegisteredCarIsFound | CarManage.py:144-204 | A valid number that matches no stored car registers, and afterwards looking up any spelling that matches it ignoring case finds exactly the new car. |
| History.BookingExtendsOnlyItsCar | CarManage.py:273-282 | A booking adds its record to the end of its own car's records and no other car's. |
| Statistics.CountTableKeys | CarManage.py:342-344 | The `service_counts` table has an entry for exactly the types that occur. |
| Statistics.CountTableCounts | CarManage.py:342-344 | Each table entry counts the records of its type. A type without an entry has no records. |
| Statistics.FirstMaximum | CarManage.py:347 | The result is the first position of a largest element: no element is larger, and every earlier element is smaller. |
| Statistics.MostPopular | CarManage.py:338-347 | There is a most popular type iff there are records. Its count is its record count, and no type has more records. It is the type of the first record whose type count is maximal. |
| Statistics.MostPopularInTable | CarManage.py:341-347 | The winner has an entry in the table, its count is that entry, and no entry is larger. |
| Statistics.ThisWeek | CarManage.py:349-354 | The weekly count is the number of records with `today - date <= 7`, future-dated ones included. |
| Statistics.ShowStatistics | CarManage.py:329-355 | The car and record counts are the list lengths. Revenue and the most popular type are shown iff there are records. Revenue is the sum of all prices. The most popular type is a largest `service_counts` entry. The weekly count is as above. |
| Statistics.TypeCountCons | CarManage.py:342-344 | One more record adds one to the count of its own type only. |
| Statistics.CatalogRevenueCons | CarManage.py:338 | One more record adds the price of its name's catalog entries to the per-catalog revenue. |
| Statistics.PriceOfUniqueName | CarManage.py:20-31 | Among entries with distinct names, a name picks out its own entry's price. |
| Statistics.PriceOfCatalogEntry | CarManage.py:20-31 | A catalog name picks out exactly its own price. |
| Statistics.RevenueByCatalog | CarManage.py:338 | When every record is priced from the catalog, revenue is the sum over the catalog of count times price. |
| Statistics.ThreeOilChanges | CarManage.py:24 | Three oil changes earn exactly 135.00. |
| Statistics.BookingUpdatesStatistics | CarManage.py:273-282 | A booking adds one record, its catalog price to the revenue, one to its type's count and one to the weekly count. |
| Scenarios.DashesRejected | CarManage.py:127-129 | "---" is not a valid car number. |
| Scenarios.PlateAccepted | CarManage.py:127-129 | "ABC-1234" is a valid car number. |
| Scenarios.StripUnpadded | CarManage.py:150 | `strip()` leaves a string without surrounding whitespace unchanged. |
| Scenarios.StripPadded | CarManage.py:150 | `strip()` removes one surrounding space on each side. |
| Scenarios.UpperExample | CarManage.py:150 | Upper-casing "abc-1234" gives "ABC-1234". |
| Scenarios.NormalizeExamples | CarManage.py:150 | " abc-1234 " and "ABC-1234" both normalise to "ABC-1234". |
| Scenarios.RegisterExample | CarManage.py:144-181 | Registering "ABC-1234" in an empty store succeeds and stores that number. |
| Scenarios.RegisterThenLookUp | CarManage.py:198-204 | After registering "ABC-1234", the details of " abc-1234 " show that car. |
| Scenarios.PlainPlateNormal | CarManage.py:150 | "ABC1234" is already in normal form. |
| Scenarios.PlainPlateAccepted | CarManage.py:127-129 | "ABC1234" is a valid car number. |
| Scenarios.SeparatorsDistinguishCars | CarManage.py:150-181 | After registering "ABC-1234", registering "ABC1234" succeeds and stores a second car. |
| Scenarios.BookingUnregisteredFails | CarManage.py:235-240 | Booking for an unregistered number fails and stores nothing. |
| Scenarios.AllOfOneCar | CarManage.py:304 | Three records of one number are all of that number's records. |
| Scenarios.RotationKeepsDays | CarManage.py:311 | Moving the last of three records with distinct days to the front keeps the records of every day. |
| Scenarios.HistoryExample | CarManage.py:298-311 | Services booked 10, 40 and 5 days ago are listed as 5, 10, 40 days ago. |

## Left out

- Terminal I/O (`print`, `input`, the menus of `welcome_user`, `main_menu` and `main`): presentation only. The user's answers are parameters.
- `welcome_user`: the owner name, including its "Guest" default, is a parameter of `RegisterCar`.
- File persistence (`_ensure_data_directory`, `_save_data`, `_load_data`): filesystem I/O. Only the `to_dict`/`from_dict` mapping and the list encodings are modelled. The printed error on a failed load or save is not.
- Records.CarFromDict: checks the kind of each value (text or number). The dataclass constructor stores whatever it is given, so a wrongly typed file loads in the source and fails in the model.
- Records.ServiceFromDict: checks the kind of each value in the same way as `CarFromDict`.
- Dates: `datetime.now()`, `strftime` and `strptime` are replaced by integer day numbers and a `today` parameter. That `YYYY-MM-DD` strings sort like their day numbers is assumed, not proved.
- Prices: floats are replaced by integer cents, and `:.2f` formatting is not modelled.
- `ValueError` when the menu answer is not an integer: the menu number is an `int` parameter. `KeyboardInterrupt` and the catch-all `except Exception` in `register_car` are left out too.
- Unicode: `strip`, `upper`, `lower`, `isalnum` and `isdigit` are modelled on ASCII only. Python's Unicode case mappings, which can change a string's length, and its Unicode digits and letters are not.
- History.CheckCarDetails: reports a total of 0 when the car has no records; the source prints no total line then.
- Presentation: the optional fields `check_car_details` prints only when set (make, year > 0, colour) and the booking confirmation details are left out.

=== FILE: ascii.dfy ===
/** The ASCII subset of Python's `str` character classes and case mapping:
    `isupper`, `islower`, `isdigit`, `isalnum`, `isspace`, `upper()`,
    `lower()` and `strip()`. */
module Ascii {

  predicate IsUpper(c: char) { 'A' <= c <= 'Z' }
  predicate IsLower(c: char) { 'a' <= c <= 'z' }
  predicate IsDigit(c: char) { '0' <= c <= '9' }
  predicate IsAlnum(c: char) { IsUpper(c) || IsLower(c) || IsDigit(c) }

  /** The ASCII characters `str.isspace` accepts: tab, line feed, vertical
      tab, form feed, carriage return, the four separators 0x1C-0x1F, and space. */
  predicate IsSpace(c: char) {
    c == ' ' || ('\t' <= c <= '\r') || ('\U{1C}' <= c <= '\U{1F}')
  }

  function LowerChar(c: char): char {
    if IsUpper(c) then (c as int + 32) as char else c
  }

  function UpperChar(c: char): char {
    if IsLower(c) then (c as int - 32) as char else c
  }

  /** `s.lower()` */
  function Lower(s: string): string {
    seq(|s|, i requires 0 <= i < |s| => LowerChar(s[i]))
  }

  /** `s.upper()` */
  function Upper(s: string): string {
    seq(|s|, i requires 0 <= i < |s| => UpperChar(s[i]))
  }

  /** Upper-casing first does not change the lower-cased form, so a
      case-insensitive comparison may be given an upper-cased query. */
  lemma LowerOfUpper(s: string)
    ensures Lower(Upper(s)) == Lower(s)
  {
    assert forall i :: 0 <= i < |s| ==> Lower(Upper(s))[i] == Lower(s)[i];
  }

  /** Upper-casing is idempotent. */
  lemma UpperIdempotent(s: string)
    ensures Upper(Upper(s)) == Upper(s)
  {
    assert forall i :: 0 <= i < |s| ==> Upper(Upper(s))[i] == Upper(s)[i];
  }

  /** Two strings without lower-case letters that agree ignoring case are equal. */
  lemma UpperCaseInjective(a: string, b: string)
    requires Upper(a) == a && Upper(b) == b
    requires Lower(a) == Lower(b)
    ensures a == b
  {
    assert |a| == |Lower(a)| == |Lower(b)| == |b|;
    forall i | 0 <= i < |a|
      ensures a[i] == b[i]
    {
      assert Upper(a)[i] == a[i] && Upper(b)[i] == b[i];
      assert Lower(a)[i] == Lower(b)[i];
    }
  }

  /** The number of leading whitespace characters of `s`. */
  function LeadingSpaces(s: string): (n: nat)
    ensures n <= |s|
    ensures forall k :: 0 <= k < n ==> IsSpace(s[k])
    ensures n < |s| ==> !IsSpace(s[n])
  {
    if |s| > 0 && IsSpace(s[0]) then 1 + LeadingSpaces(s[1..]) else 0
  }

  /** The length of `s` once its trailing whitespace is removed. */
  function TrailingStart(s: string): (m: nat)
    ensures m <= |s|
    ensures forall k :: m <= k < |s| ==> IsSpace(s[k])
    ensures 0 < m ==> !IsSpace(s[m - 1])
  {
    if |s| > 0 && IsSpace(s[|s| - 1]) then TrailingStart(s[..|s| - 1]) else |s|
  }

  /** `s.strip()`: the slice of `s` between its leading and its trailing
      whitespace; it neither starts nor ends with whitespace. */
  function Strip(s: string): (r: string)
    ensures exists i, j :: (0 <= i <= j <= |s| && r == s[i..j]
      && (forall k :: 0 <= k < i ==> IsSpace(s[k]))
      && (forall k :: j <= k < |s| ==> IsSpace(s[k])))
    ensures |r| > 0 ==> !IsSpace(r[0]) && !IsSpace(r[|r| - 1])
  {
    var i := LeadingSpaces(s);
    var t := s[i..];
    var j := TrailingStart(t);
    assert t[..j] == s[i..i + j];
    s[i..i + j]
  }
}

=== FILE: catalog.dfy ===
/** The fixed service catalog (`ServiceType` in CarManage.py): six named
    services, each with a fixed price, kept in declaration order. Prices
    are in cents. */
module Catalog {

  datatype ServiceType =
    | CarWash
    | CarPaint
    | OilChange
    | TireRotation
    | BrakeInspection
    | EngineTuneUp
  {
    /** The display name stored in service records. */
    function Name(): string {
      match this
      case CarWash => "Car Wash"
      case CarPaint => "Car Paint"
      case OilChange => "Oil Change"
      case TireRotation => "Tire Rotation"
      case BrakeInspection => "Brake Inspection"
      case EngineTuneUp => "Engine Tune-Up"
    }

    /** The price in cents. */
    function Price(): nat {
      match this
      case CarWash => 2500
      case CarPaint => 15000
      case OilChange => 4500
      case TireRotation => 3000
      case BrakeInspection => 6000
      case EngineTuneUp => 12000
    }
  }

  /** `list(ServiceType)`: the catalog in declaration order; the booking
      menu numbers these entries from 1. */
  const Services: seq<ServiceType> :=
    [CarWash, CarPaint, OilChange, TireRotation, BrakeInspection, EngineTuneUp]

  /** A (name, price) pair that some catalog entry carries. */
  predicate IsCatalogEntry(name: string, price: int) {
    exists k :: 0 <= k < |Services| && Services[k].Name() == name && Services[k].Price() == price
  }

  /** Every service type appears in the catalog exactly once, and names
      identify entries. */
  lemma CatalogWellFormed()
    ensures |Services| == 6
    ensures forall t: ServiceType :: t in Services
    ensures forall i, j :: 0 <= i < j < |Services| ==> Services[i].Name() != Services[j].Name()
    ensures forall i :: 0 <= i < |Services| ==> Services[i].Price() > 0
  {
    forall t: ServiceType
      ensures t in Services
    {
      match t
      case CarWash => assert Services[0] == t;
      case CarPaint => assert Services[1] == t;
      case OilChange => assert Services[2] == t;
      case TireRotation => assert Services[3] == t;
      case BrakeInspection => assert Services[4] == t;
      case EngineTuneUp => assert Services[5] == t;
    }
  }
}

=== FILE: history.dfy ===
/** The read-only views of one car: `view_service_history` (its records,
    newest first, with the total spent) and `check_car_details` (the car
    and a summary of its records).

    Dates are day numbers; the source sorts `YYYY-MM-DD` strings, which
    order the same way as the days they name. */
module History {
  import opened Results
  import opened Seqs
  import opened Records
  import opened Inputs
  import opened RecordStore

  /** The test of the list comprehension at CarManage.py:304: an exact,
      case-sensitive comparison of car numbers. */
  function NumberIs(number: string): ServiceRecord -> bool {
    (s: ServiceRecord) => s.carNumber == number
  }

  function DateIs(day: int): ServiceRecord -> bool {
    (s: ServiceRecord) => s.serviceDate == day
  }

  /** The records of one car number, in insertion order. */
  function ServicesFor(services: seq<ServiceRecord>, number: string): seq<ServiceRecord> {
    Filter(services, NumberIs(number))
  }

  /** The records of one day, in their order in `rs`. */
  function OnDate(rs: seq<ServiceRecord>, day: int): seq<ServiceRecord> {
    Filter(rs, DateIs(day))
  }

  /** Ordered by date, most recent first. */
  predicate NewestFirst(rs: seq<ServiceRecord>) {
    forall i, j :: 0 <= i < j < |rs| ==> rs[i].serviceDate >= rs[j].serviceDate
  }

  /** Inserts `x` after every record of `ys` dated on or after it. */
  function Insert(x: ServiceRecord, ys: seq<ServiceRecord>): seq<ServiceRecord> {
    if |ys| == 0 then [x]
    else if ys[0].serviceDate >= x.serviceDate then [ys[0]] + Insert(x, ys[1..])
    else [x] + ys
  }

  /** `rs.sort(key=lambda x: x.service_date, reverse=True)`: insertion sort,
      each later record placed after the earlier ones of its date. */
  function SortNewestFirst(rs: seq<ServiceRecord>): seq<ServiceRecord> {
    if |rs| == 0 then [] else Insert(rs[|rs| - 1], SortNewestFirst(rs[..|rs| - 1]))
  }

  lemma OnDateAppend(a: seq<ServiceRecord>, b: seq<ServiceRecord>, day: int)
    ensures OnDate(a + b, day) == OnDate(a, day) + OnDate(b, day)
  {
    FilterAppend(a, b, DateIs(day));
  }

  lemma TotalPriceCons(x: ServiceRecord, ys: seq<ServiceRecord>)
    ensures TotalPrice([x] + ys) == x.price + TotalPrice(ys)
  {
    assert ([x] + ys)[1..] == ys;
  }

  /** The records of one day in a sequence with a known first record. */
  lemma OnDateCons(x: ServiceRecord, ys: seq<ServiceRecord>, day: int)
    ensures OnDate([x] + ys, day) == (if x.serviceDate == day then [x] else []) + OnDate(ys, day)
  {
    OnDateAppend([x], ys, day);
  }

  /** Every record of a newest-first sequence is no later than its first one. */
  lemma FirstIsLatest(rs: seq<ServiceRecord>, x: ServiceRecord)
    requires NewestFirst(rs) && x in rs
    ensures x.serviceDate <= rs[0].serviceDate
  {
    var k :| 0 <= k < |rs| && rs[k] == x;
  }

  /** Insertion adds exactly `x`. */
  lemma {:induction false} InsertPermutes(x: ServiceRecord, ys: seq<ServiceRecord>)
    ensures multiset(Insert(x, ys)) == multiset(ys) + multiset{x}
  {
    if |ys| > 0 && ys[0].serviceDate >= x.serviceDate {
      InsertPermutes(x, ys[1..]);
      assert ys == [ys[0]] + ys[1..];
    }
  }

  /** A record no earlier than every record of a newest-first sequence can
      go in front of it. */
  lemma ConsOrdered(h: ServiceRecord, rest: seq<ServiceRecord>)
    requires NewestFirst(rest)
    requires forall i :: 0 <= i < |rest| ==> rest[i].serviceDate <= h.serviceDate
    ensures NewestFirst([h] + rest)
  {
    var r := [h] + rest;
    forall i, j | 0 <= i < j < |r|
      ensures r[i].serviceDate >= r[j].serviceDate
    {
      assert r[j] == rest[j - 1];
      if i > 0 {
        assert r[i] == rest[i - 1];
      }
    }
  }

  /** Insertion adds no record later than a bound all the records keep. */
  lemma {:induction false} InsertBounded(x: ServiceRecord, ys: seq<ServiceRecord>, bound: int)
    requires x.serviceDate <= bound
    requires forall i :: 0 <= i < |ys| ==> ys[i].serviceDate <= bound
    ensures forall i :: 0 <= i < |Insert(x, ys)| ==> Insert(x, ys)[i].serviceDate <= bound
  {
    if |ys| > 0 && ys[0].serviceDate >= x.serviceDate {
      InsertBounded(x, ys[1..], bound);
      var r := Insert(x, ys);
      assert r == [ys[0]] + Insert(x, ys[1..]);
      forall i | 0 <= i < |r|
        ensures r[i].serviceDate <= bound
      {
        if i > 0 {
          assert r[i] == Insert(x, ys[1..])[i - 1];
        }
      }
    } else if |ys| > 0 {
      var r := Insert(x, ys);
      assert r == [x] + ys;
      forall i | 0 <= i < |r|
        ensures r[i].serviceDate <= bound
      {
        if i > 0 {
          assert r[i] == ys[i - 1];
        }
      }
    }
  }

  /** Insertion into a newest-first sequence keeps it newest first. */
  lemma {:induction false} InsertOrdered(x: ServiceRecord, ys: seq<ServiceRecord>)
    requires NewestFirst(ys)
    ensures NewestFirst(Insert(x, ys))
  {
    if |ys| > 0 && ys[0].serviceDate >= x.serviceDate {
      var tail := ys[1..];
      assert NewestFirst(tail);
      assert forall i :: 0 <= i < |tail| ==> tail[i].serviceDate <= ys[0].serviceDate by {
        forall i | 0 <= i < |tail|
          ensures tail[i].serviceDate <= ys[0].serviceDate
        {
          assert tail[i] == ys[i + 1];
        }
      }
      InsertOrdered(x, tail);
      InsertBounded(x, tail, ys[0].serviceDate);
      ConsOrdered(ys[0], Insert(x, tail));
    } else if |ys| > 0 {
      ConsOrdered(x, ys);
    }
  }

  /** A record later than every record of a newest-first sequence goes in
      front, and no record of its day is behind it. */
  lemma InsertInFront(x: ServiceRecord, ys: seq<ServiceRecord>, day: int)
    requires NewestFirst(ys)
    requires |ys| > 0 && ys[0].serviceDate < x.serviceDate
    ensures Insert(x, ys) == [x] + ys
    ensures OnDate(Insert(x, ys), day) == OnDate(ys, day) + OnDate([x], day)
  {
    OnDateCons(x, ys, day);
    if day == x.serviceDate {
      assert forall i :: 0 <= i < |ys| ==> ys[i].serviceDate <= ys[0].serviceDate < day;
      FilterNone(ys, DateIs(day));
    } else {
      assert OnDate([x], day) == [];
    }
  }

  /** Insertion puts `x` behind the records of its own date: the records of
      every day are those of `ys` followed by `x` if it is of that day. */
  lemma {:induction false} InsertStable(x: ServiceRecord, ys: seq<ServiceRecord>, day: int)
    requires NewestFirst(ys)
    ensures OnDate(Insert(x, ys), day) == OnDate(ys, day) + OnDate([x], day)
  {
    if |ys| == 0 {
      assert Insert(x, ys) == [x];
      assert OnDate(ys, day) == [];
    } else if ys[0].serviceDate >= x.serviceDate {
      var head := if ys[0].serviceDate == day then [ys[0]] else [];
      var rest := Insert(x, ys[1..]);
      assert Insert(x, ys) == [ys[0]] + rest;
      InsertStable(x, ys[1..], day);
      OnDateCons(ys[0], rest, day);
      assert ys == [ys[0]] + ys[1..];
      OnDateCons(ys[0], ys[1..], day);
      assert OnDate(Insert(x, ys), day) == head + (OnDate(ys[1..], day) + OnDate([x], day));
    } else {
      InsertInFront(x, ys, day);
    }
  }

  /** Insertion adds the price of `x` to the total. */
  lemma {:induction false} InsertTotal(x: ServiceRecord, ys: seq<ServiceRecord>)
    ensures TotalPrice(Insert(x, ys)) == TotalPrice(ys) + x.price
  {
    if |ys| == 0 {
      TotalPriceCons(x, []);
    } else if ys[0].serviceDate >= x.serviceDate {
      InsertTotal(x, ys[1..]);
      TotalPriceCons(ys[0], Insert(x, ys[1..]));
    } else {
      TotalPriceCons(x, ys);
    }
  }

  /** The sort is newest first, a permutation, keeps the order of the
      records of each day (stability), and keeps the total. */
  lemma {:induction false} SortFacts(rs: seq<ServiceRecord>)
    ensures NewestFirst(SortNewestFirst(rs))
    ensures multiset(SortNewestFirst(rs)) == multiset(rs)
    ensures forall day :: OnDate(SortNewestFirst(rs), day) == OnDate(rs, day)
    ensures TotalPrice(SortNewestFirst(rs)) == TotalPrice(rs)
  {
    if |rs| > 0 {
      var init, last := rs[..|rs| - 1], rs[|rs| - 1];
      assert rs == init + [last];
      SortFacts(init);
      InsertPermutes(last, SortNewestFirst(init));
      InsertOrdered(last, SortNewestFirst(init));
      InsertTotal(last, SortNewestFirst(init));
      forall day
        ensures OnDate(SortNewestFirst(rs), day) == OnDate(rs, day)
      {
        InsertStable(last, SortNewestFirst(init), day);
        OnDateAppend(init, [last], day);
      }
      TotalPriceAppend(init, [last]);
      TotalPriceCons(last, []);
    }
  }

  /** A newest-first sequence is determined by its records of each day: two
      newest-first sequences that agree day by day are equal. So every
      stable newest-first sort gives the same result as `SortNewestFirst`. */
  lemma {:induction false} StableOrderUnique(a: seq<ServiceRecord>, b: seq<ServiceRecord>)
    requires NewestFirst(a) && NewestFirst(b)
    requires forall day :: OnDate(a, day) == OnDate(b, day)
    ensures a == b
    decreases |a|
  {
    if |b| > 0 {
      FilterMembers(b, DateIs(b[0].serviceDate));
      FilterMembers(a, DateIs(b[0].serviceDate));
      assert b[0] in OnDate(b, b[0].serviceDate);
    }
    if |a| > 0 {
      FilterMembers(a, DateIs(a[0].serviceDate));
      FilterMembers(b, DateIs(a[0].serviceDate));
      assert a[0] in OnDate(a, a[0].serviceDate);
    }
    if |a| > 0 {
      var da, db := a[0].serviceDate, b[0].serviceDate;
      assert b[0] in OnDate(a, db);
      FirstIsLatest(a, b[0]);
      assert a[0] in OnDate(b, da);
      FirstIsLatest(b, a[0]);
      assert a == [a[0]] + a[1..];
      assert b == [b[0]] + b[1..];
      OnDateCons(a[0], a[1..], da);
      OnDateCons(b[0], b[1..], da);
      assert a[0] == OnDate(a, da)[0] == b[0];
      forall day
        ensures OnDate(a[1..], day) == OnDate(b[1..], day)
      {
        OnDateCons(a[0], a[1..], day);
        OnDateCons(b[0], b[1..], day);
        var head := if a[0].serviceDate == day then [a[0]] else [];
        assert OnDate(a[1..], day) == OnDate(a, day)[|head|..];
        assert OnDate(b[1..], day) == OnDate(b, day)[|head|..];
      }
      StableOrderUnique(a[1..], b[1..]);
    }
  }

  // ---------------------------------------------------------------------
  // view_service_history
  // ---------------------------------------------------------------------

  /** The listing of `view_service_history` and the total it prints. */
  datatype HistoryView = HistoryView(records: seq<ServiceRecord>, totalSpent: int)

  /** The sorted records of a car are the store's records with its number. */
  lemma SortedMembers(services: seq<ServiceRecord>, number: string)
    ensures forall x :: x in SortNewestFirst(ServicesFor(services, number)) <==>
      x in services && x.carNumber == number
  {
    var mine := ServicesFor(services, number);
    SortFacts(mine);
    FilterMembers(services, NumberIs(number));
    forall x
      ensures x in SortNewestFirst(mine) <==> x in mine
    {
      assert x in SortNewestFirst(mine) <==> x in multiset(SortNewestFirst(mine));
      assert x in mine <==> x in multiset(mine);
    }
  }

  /** A car's listing is empty exactly when no record carries its number. */
  lemma SortedEmpty(services: seq<ServiceRecord>, number: string)
    ensures |SortNewestFirst(ServicesFor(services, number))| == 0 <==>
      forall k :: 0 <= k < |services| ==> services[k].carNumber != number
  {
    var mine := ServicesFor(services, number);
    SortFacts(mine);
    assert |SortNewestFirst(mine)| == |multiset(mine)| == |mine|;
    FilterNonEmpty(services, NumberIs(number));
  }

  /** `view_service_history`: the records whose number is exactly the
      normalised query, most recent first, records of one day in booking
      order; and the sum of their prices. An empty listing is the "no
      service history" message. */
  function ViewServiceHistory(store: Store, rawNumber: string): (v: HistoryView)
    ensures forall x :: x in v.records <==>
      x in store.services && x.carNumber == NormalizeCarNumber(rawNumber)
    ensures multiset(v.records) == multiset(ServicesFor(store.services, NormalizeCarNumber(rawNumber)))
    ensures NewestFirst(v.records)
    ensures forall day :: OnDate(v.records, day) == OnDate(ServicesFor(store.services, NormalizeCarNumber(rawNumber)), day)
    ensures v.totalSpent == TotalPrice(ServicesFor(store.services, NormalizeCarNumber(rawNumber)))
    ensures |v.records| == 0 <==>
      forall k :: 0 <= k < |store.services| ==> store.services[k].carNumber != NormalizeCarNumber(rawNumber)
  {
    var number := NormalizeCarNumber(rawNumber);
    var mine := ServicesFor(store.services, number);
    SortFacts(mine);
    SortedMembers(store.services, number);
    SortedEmpty(store.services, number);
    var sorted := SortNewestFirst(mine);
    HistoryView(sorted, TotalPrice(sorted))
  }

  /** The listing is THE stable newest-first order of the car's records:
      any newest-first arrangement that keeps each day's records in
      booking order is exactly the listing. */
  lemma HistoryIsStableSort(store: Store, rawNumber: string, listing: seq<ServiceRecord>)
    requires NewestFirst(listing)
    requires forall day :: (OnDate(listing, day) ==
      OnDate(ServicesFor(store.services, NormalizeCarNumber(rawNumber)), day))
    ensures listing == ViewServiceHistory(store, rawNumber).records
  {
    StableOrderUnique(listing, ViewServiceHistory(store, rawNumber).records);
  }

  // ---------------------------------------------------------------------
  // check_car_details
  // ---------------------------------------------------------------------

  /** What `check_car_details` shows: the car, its number of services and
      the total spent on them. */
  datatype CarSummary = CarSummary(car: Car, serviceCount: nat, totalSpent: int)

  /** `check_car_details`: the car is found ignoring case, but its services
      are those whose number equals the normalised query exactly. */
  function CheckCarDetails(store: Store, rawNumber: string): (r: Option<CarSummary>)
    ensures r.None? <==>
      forall i :: 0 <= i < |store.cars| ==> !SameNumber(store.cars[i].carNumber, NormalizeCarNumber(rawNumber))
    ensures r.Some? ==> r.value.car in store.cars
    ensures r.Some? ==> FindCar(store.cars, NormalizeCarNumber(rawNumber)) == Some(r.value.car)
    ensures r.Some? ==> SameNumber(r.value.car.carNumber, NormalizeCarNumber(rawNumber))
    ensures r.Some? ==> r.value.serviceCount == |ServicesFor(store.services, NormalizeCarNumber(rawNumber))|
    ensures r.Some? ==> r.value.totalSpent == TotalPrice(ServicesFor(store.services, NormalizeCarNumber(rawNumber)))
  {
    var number := NormalizeCarNumber(rawNumber);
    match FindCar(store.cars, number)
    case None => None
    case Some(car) =>
      var mine := ServicesFor(store.services, number);
      Some(CarSummary(car, |mine|, TotalPrice(mine)))
  }

  /** The summary agrees with the history: the same number of records and
      the same total. */
  lemma DetailsAgreeWithHistory(store: Store, rawNumber: string)
    requires CheckCarDetails(store, rawNumber).Some?
    ensures CheckCarDetails(store, rawNumber).value.serviceCount
      == |ViewServiceHistory(store, rawNumber).records|
    ensures CheckCarDetails(store, rawNumber).value.totalSpent
      == ViewServiceHistory(store, rawNumber).totalSpent
  {
    var mine := ServicesFor(store.services, NormalizeCarNumber(rawNumber));
    assert |multiset(ViewServiceHistory(store, rawNumber).records)| == |multiset(mine)|;
  }

  /** In a consistent store the summary counts exactly the records that
      carry the found car's own number. */
  lemma DetailsCountCarsOwnRecords(store: Store, rawNumber: string)
    requires Consistent(store)
    requires CheckCarDetails(store, rawNumber).Some?
    ensures var s := CheckCarDetails(store, rawNumber).value;
      s.serviceCount == |ServicesFor(store.services, s.car.carNumber)|
  {
    FoundCarHasQueriedNumber(store, rawNumber);
  }

  /** A valid number that matches no stored car registers, and afterwards
      looking the car up under any spelling that matches its number
      ignoring case finds exactly the registered car. */
  lemma RegisteredCarIsFound(store: Store, today: int, owner: string, form: RegistrationForm, rawQuery: string)
    requires ValidCarNumber(NormalizeCarNumber(form.carNumber))
    requires forall i :: 0 <= i < |store.cars| ==> !SameNumber(store.cars[i].carNumber, NormalizeCarNumber(form.carNumber))
    requires SameNumber(NormalizeCarNumber(rawQuery), NormalizeCarNumber(form.carNumber))
    ensures var r := RegisterCar(store, today, owner, form);
      && r.reply.Ok?
      && CheckCarDetails(r.store, rawQuery).Some?
      && CheckCarDetails(r.store, rawQuery).value.car == r.reply.value
  {
    var r := RegisterCar(store, today, owner, form);
    var q := NormalizeCarNumber(rawQuery);
    var cars := r.store.cars;
    var last := |cars| - 1;
    assert cars == store.cars + [r.reply.value];
    assert SameNumber(cars[last].carNumber, q);
    assert FindCar(cars, q).Some?;
    var i :| FirstMatchAt(cars, q, i) && cars[i] == FindCar(cars, q).value;
    assert i == last;
  }

  /** A successful booking adds its record to the end of its own car's
      records and leaves every other car number's records as they were. */
  lemma BookingExtendsOnlyItsCar(store: Store, today: int, rawNumber: string, choice: int,
                                 answer: string, rawNotes: string, number: string)
    requires BookService(store, today, rawNumber, choice, answer, rawNotes).reply.Ok?
    ensures var r := BookService(store, today, rawNumber, choice, answer, rawNotes);
      ServicesFor(r.store.services, number) ==
        ServicesFor(store.services, number)
        + (if number == NormalizeCarNumber(rawNumber) then [r.reply.value.record] else [])
  {
    var r := BookService(store, today, rawNumber, choice, answer, rawNotes);
    FilterSnoc(store.services, r.reply.value.record, NumberIs(number));
  }
}

=== FILE: inputs.dfy ===
/** The decisions CarManage.py takes on the user's raw answers: how a car
    number is normalised and validated, how the optional year is parsed,
    and what counts as confirming the recent-duplicate advisory. */
module Inputs {
  import opened Ascii
  import opened Seqs

  /** `input(...).strip().upper()`: the form in which a car number is
      registered, booked and looked up. */
  function NormalizeCarNumber(raw: string): (n: string)
    ensures Upper(n) == n
    ensures Lower(n) == Lower(Strip(raw))
    ensures |n| <= |raw|
  {
    var s := Strip(raw);
    UpperIdempotent(s);
    LowerOfUpper(s);
    Upper(s)
  }

  /** The normal form is the only upper-case string that equals the
      stripped answer ignoring case. */
  lemma NormalizePinned(raw: string, m: string)
    requires Upper(m) == m
    requires Lower(m) == Lower(Strip(raw))
    ensures m == NormalizeCarNumber(raw)
  {
    UpperCaseInjective(m, NormalizeCarNumber(raw));
  }

  /** The characters `_validate_car_number` deletes before `isalnum`. */
  predicate IsSeparator(c: char) { c == '-' || c == ' ' }

  /** The characters `_validate_car_number` keeps. */
  predicate Kept(c: char) { !IsSeparator(c) }

  /** `s.replace('-', '').replace(' ', '')` */
  function RemoveSeparators(s: string): string {
    Filter(s, Kept)
  }

  /** `s.isalnum()`: false on the empty string. */
  predicate IsAlnumString(s: string) {
    |s| > 0 && forall i :: 0 <= i < |s| ==> IsAlnum(s[i])
  }

  /** `_validate_car_number` */
  predicate ValidCarNumber(s: string) {
    |s| >= 3 && IsAlnumString(RemoveSeparators(s))
  }

  /** A car number is valid exactly when it has at least three characters,
      every character is a letter, a digit, a hyphen or a space, and at
      least one character is a letter or a digit. */
  lemma ValidCarNumberIff(s: string)
    ensures ValidCarNumber(s) <==>
      && |s| >= 3
      && (forall i :: 0 <= i < |s| ==> IsAlnum(s[i]) || IsSeparator(s[i]))
      && (exists i :: 0 <= i < |s| && IsAlnum(s[i]))
  {
    var t := RemoveSeparators(s);
    FilterMembers(s, Kept);
    if ValidCarNumber(s) {
      forall i | 0 <= i < |s|
        ensures IsAlnum(s[i]) || IsSeparator(s[i])
      {
        if !IsSeparator(s[i]) {
          assert s[i] in t;
          var j :| 0 <= j < |t| && t[j] == s[i];
        }
      }
      assert t[0] in s;
      var i :| 0 <= i < |s| && s[i] == t[0];
      assert IsAlnum(s[i]);
    }
    if && |s| >= 3
       && (forall i :: 0 <= i < |s| ==> IsAlnum(s[i]) || IsSeparator(s[i]))
       && (exists i :: 0 <= i < |s| && IsAlnum(s[i]))
    {
      var i :| 0 <= i < |s| && IsAlnum(s[i]);
      assert s[i] in t;
      forall j | 0 <= j < |t|
        ensures IsAlnum(t[j])
      {
        var k :| 0 <= k < |s| && s[k] == t[j];
      }
    }
  }

  /** Upper-casing a car number does not change whether it is valid, so
      validating the normalised form judges what the user typed. */
  lemma ValidCarNumberIgnoresCase(s: string)
    ensures ValidCarNumber(Upper(s)) <==> ValidCarNumber(s)
    ensures ValidCarNumber(Lower(s)) <==> ValidCarNumber(s)
  {
    var u, l := Upper(s), Lower(s);
    ValidCarNumberIff(s);
    ValidCarNumberIff(u);
    ValidCarNumberIff(l);
    assert forall i :: 0 <= i < |s| ==> (IsAlnum(u[i]) <==> IsAlnum(s[i]));
    assert forall i :: 0 <= i < |s| ==> (IsSeparator(u[i]) <==> IsSeparator(s[i]));
    assert forall i :: 0 <= i < |s| ==> (IsAlnum(l[i]) <==> IsAlnum(s[i]));
    assert forall i :: 0 <= i < |s| ==> (IsSeparator(l[i]) <==> IsSeparator(s[i]));
  }

  // ---------------------------------------------------------------------
  // The optional year
  // ---------------------------------------------------------------------

  /** `s.isdigit()` on ASCII: false on the empty string. */
  predicate IsDigitString(s: string) {
    |s| > 0 && forall i :: 0 <= i < |s| ==> IsDigit(s[i])
  }

  function DigitValue(c: char): (d: nat)
    requires IsDigit(c)
    ensures d <= 9
  {
    c as int - '0' as int
  }

  function DigitChar(d: nat): (c: char)
    requires d <= 9
    ensures IsDigit(c) && DigitValue(c) == d
  {
    ('0' as int + d) as char
  }

  /** `int(s) if s.isdigit() and len(s) == 4 else 0` */
  function ParseYear(s: string): (y: nat)
    ensures y <= 9999
    ensures y != 0 ==> |s| == 4 && IsDigitString(s)
  {
    if |s| == 4 && IsDigitString(s) then
      DigitValue(s[0]) * 1000 + DigitValue(s[1]) * 100 + DigitValue(s[2]) * 10 + DigitValue(s[3])
    else 0
  }

  /** A year written with four digits, zero-padded. */
  function FourDigits(y: nat): (s: string)
    requires y <= 9999
    ensures |s| == 4 && IsDigitString(s)
  {
    [DigitChar(y / 1000), DigitChar(y % 1000 / 100), DigitChar(y % 100 / 10), DigitChar(y % 10)]
  }

  /** Division with remainder by a power of ten, from a known quotient and remainder. */
  lemma DivideBy(y: int, n: int, q: int, r: int)
    requires n == 10 || n == 100 || n == 1000
    requires 0 <= r < n && y == q * n + r
    ensures y / n == q && y % n == r
  {
  }

  /** Four decimal digits combine to a number whose digits they are. */
  lemma DigitsCombine(a: int, b: int, c: int, d: int)
    requires 0 <= a <= 9 && 0 <= b <= 9 && 0 <= c <= 9 && 0 <= d <= 9
    ensures var y := a * 1000 + b * 100 + c * 10 + d;
      0 <= y <= 9999 && y / 1000 == a && y % 1000 / 100 == b && y % 100 / 10 == c && y % 10 == d
  {
    var y := a * 1000 + b * 100 + c * 10 + d;
    DivideBy(y, 1000, a, b * 100 + c * 10 + d);
    DivideBy(b * 100 + c * 10 + d, 100, b, c * 10 + d);
    DivideBy(y, 100, a * 10 + b, c * 10 + d);
    DivideBy(c * 10 + d, 10, c, d);
    DivideBy(y, 10, a * 100 + b * 10 + c, d);
  }

  /** A number below 10000 is the combination of its four decimal digits. */
  lemma DigitsSplit(y: int)
    requires 0 <= y <= 9999
    ensures y == y / 1000 * 1000 + y % 1000 / 100 * 100 + y % 100 / 10 * 10 + y % 10
  {
    var a, r1 := y / 1000, y % 1000;
    var b, r2 := r1 / 100, r1 % 100;
    DivideBy(y, 100, a * 10 + b, r2);
    var c, r3 := r2 / 10, r2 % 10;
    DivideBy(y, 10, a * 100 + b * 10 + c, r3);
  }

  /** Any year up to 9999, written with four digits, parses back to itself. */
  lemma YearRoundTrip(y: nat)
    requires y <= 9999
    ensures ParseYear(FourDigits(y)) == y
  {
    DigitsSplit(y);
  }

  /** Every four-digit answer is exactly the four-digit form of the year it
      parses to. */
  lemma YearDigitsRoundTrip(s: string)
    requires |s| == 4 && IsDigitString(s)
    ensures FourDigits(ParseYear(s)) == s
  {
    var y := ParseYear(s);
    DigitsCombine(DigitValue(s[0]), DigitValue(s[1]), DigitValue(s[2]), DigitValue(s[3]));
    var t := FourDigits(y);
    assert forall i :: 0 <= i < 4 ==> DigitValue(t[i]) == DigitValue(s[i]);
    assert forall i :: 0 <= i < 4 ==> t[i] == s[i];
  }

  // ---------------------------------------------------------------------
  // The confirmation answer
  // ---------------------------------------------------------------------

  /** `input(...).lower() == 'y'`: the answer is not stripped. */
  predicate Confirms(answer: string) {
    Lower(answer) == "y"
  }

  /** Only the one-character answers "y" and "Y" confirm. */
  lemma ConfirmsIff(answer: string)
    ensures Confirms(answer) <==> answer == "y" || answer == "Y"
  {
    if Confirms(answer) {
      assert |answer| == 1;
      assert Lower(answer)[0] == LowerChar(answer[0]) == 'y';
      assert answer == [answer[0]];
    }
    if answer == "Y" {
      assert Lower(answer)[0] == 'y';
    }
  }
}

=== FILE: records.dfy ===
/** The two record kinds of the store (`Car` and `ServiceRecord` in
    CarManage.py), the sum of prices, and the `to_dict`/`from_dict` pair
    that maps a record to the flat field dictionary written to disk. */
module Records {
  import opened Results

  /** A registered car. `registrationDate` is a day number. */
  datatype Car = Car(
    ownerName: string,
    registrationDate: int,
    carNumber: string,
    modelNumber: string,
    make: string,
    year: int,
    color: string)

  /** One booked service. `serviceDate` is a day number, `price` is in cents. */
  datatype ServiceRecord = ServiceRecord(
    serviceType: string,
    serviceDate: int,
    carNumber: string,
    modelNumber: string,
    price: int,
    status: string,
    notes: string)

  /** The status a new service record gets. */
  const Completed: string := "Completed"

  /** `sum(s.price for s in rs)` */
  function TotalPrice(rs: seq<ServiceRecord>): int {
    if |rs| == 0 then 0 else rs[0].price + TotalPrice(rs[1..])
  }

  /** The total of a concatenation is the sum of the totals. */
  lemma {:induction false} TotalPriceAppend(a: seq<ServiceRecord>, b: seq<ServiceRecord>)
    ensures TotalPrice(a + b) == TotalPrice(a) + TotalPrice(b)
  {
    if |a| == 0 {
      assert a + b == b;
    } else {
      assert (a + b)[1..] == a[1..] + b;
      TotalPriceAppend(a[1..], b);
    }
  }

  // ---------------------------------------------------------------------
  // Field dictionaries (`asdict` and `cls(**data)`)
  // ---------------------------------------------------------------------

  /** A dictionary value: a string or a number. */
  datatype Field = Text(text: string) | Number(number: int)

  type Dict = map<string, Field>

  /** The value of a string field; `None` when missing or not a string. */
  function GetText(d: Dict, key: string): Option<string> {
    if key in d && d[key].Text? then Some(d[key].text) else None
  }

  /** The value of a string field that has a default when missing. */
  function GetTextOr(d: Dict, key: string, default: string): Option<string> {
    if key in d then GetText(d, key) else Some(default)
  }

  /** The value of a number field; `None` when missing or not a number. */
  function GetNumber(d: Dict, key: string): Option<int> {
    if key in d && d[key].Number? then Some(d[key].number) else None
  }

  /** The value of a number field that has a default when missing. */
  function GetNumberOr(d: Dict, key: string, default: int): Option<int> {
    if key in d then GetNumber(d, key) else Some(default)
  }

  const CarFields: set<string> :=
    {"owner_name", "registration_date", "car_number", "model_number", "make", "year", "color"}

  /** The fields of `Car` without a default value. */
  const CarRequiredFields: set<string> :=
    {"owner_name", "registration_date", "car_number", "model_number"}

  /** The fields of `Car` that hold numbers; every other field holds text. */
  const CarNumberFields: set<string> := {"registration_date", "year"}

  /** Every value of `d` has the kind its key calls for: a number exactly
      for the keys in `numberFields`. */
  predicate WellKinded(d: Dict, numberFields: set<string>) {
    forall k :: k in d ==> (d[k].Number? <==> k in numberFields)
  }

  /** `Car.to_dict` */
  function CarToDict(c: Car): (d: Dict)
    ensures d.Keys == CarFields
  {
    map[
      "owner_name" := Text(c.ownerName),
      "registration_date" := Number(c.registrationDate),
      "car_number" := Text(c.carNumber),
      "model_number" := Text(c.modelNumber),
      "make" := Text(c.make),
      "year" := Number(c.year),
      "color" := Text(c.color)]
  }

  /** `Car.from_dict`: fails on an unknown key, a missing required key or a
      value of the wrong kind; a missing optional key takes its default. */
  function CarFromDict(d: Dict): (r: Option<Car>)
    ensures r.Some? <==> CarRequiredFields <= d.Keys <= CarFields && WellKinded(d, CarNumberFields)
    ensures r.Some? ==>
      CarToDict(r.value) == map["make" := Text(""), "year" := Number(0), "color" := Text("")] + d
  {
    if !(d.Keys <= CarFields) then None
    else
      var owner := GetText(d, "owner_name");
      var registered := GetNumber(d, "registration_date");
      var number := GetText(d, "car_number");
      var model := GetText(d, "model_number");
      var make := GetTextOr(d, "make", "");
      var year := GetNumberOr(d, "year", 0);
      var color := GetTextOr(d, "color", "");
      if owner.Some? && registered.Some? && number.Some? && model.Some?
        && make.Some? && year.Some? && color.Some?
      then Some(Car(owner.value, registered.value, number.value, model.value,
                    make.value, year.value, color.value))
      else None
  }

  /** Reading back a written car yields the same car. */
  lemma CarDictRoundTrip(c: Car)
    ensures CarFromDict(CarToDict(c)) == Some(c)
  {
  }

  /** A complete dictionary that reads as a car is exactly what writing that
      car produces. */
  lemma CarDictFaithful(d: Dict)
    requires d.Keys == CarFields
    requires CarFromDict(d).Some?
    ensures CarToDict(CarFromDict(d).value) == d
  {
    var e := CarToDict(CarFromDict(d).value);
    assert forall k :: k in CarFields ==> e[k] == d[k];
  }

  const ServiceFields: set<string> :=
    {"service_type", "service_date", "car_number", "model_number", "price", "status", "notes"}

  /** The fields of `ServiceRecord` without a default value. */
  const ServiceRequiredFields: set<string> :=
    {"service_type", "service_date", "car_number", "model_number", "price"}

  /** The fields of `ServiceRecord` that hold numbers. */
  const ServiceNumberFields: set<string> := {"service_date", "price"}

  /** `ServiceRecord.to_dict` */
  function ServiceToDict(s: ServiceRecord): (d: Dict)
    ensures d.Keys == ServiceFields
  {
    map[
      "service_type" := Text(s.serviceType),
      "service_date" := Number(s.serviceDate),
      "car_number" := Text(s.carNumber),
      "model_number" := Text(s.modelNumber),
      "price" := Number(s.price),
      "status" := Text(s.status),
      "notes" := Text(s.notes)]
  }

  /** `ServiceRecord.from_dict`, with the defaults `status = "Completed"`
      and `notes = ""`. */
  function ServiceFromDict(d: Dict): (r: Option<ServiceRecord>)
    ensures r.Some? <==> ServiceRequiredFields <= d.Keys <= ServiceFields && WellKinded(d, ServiceNumberFields)
    ensures r.Some? ==>
      ServiceToDict(r.value) == map["status" := Text(Completed), "notes" := Text("")] + d
  {
    if !(d.Keys <= ServiceFields) then None
    else
      var kind := GetText(d, "service_type");
      var date := GetNumber(d, "service_date");
      var number := GetText(d, "car_number");
      var model := GetText(d, "model_number");
      var price := GetNumber(d, "price");
      var status := GetTextOr(d, "status", Completed);
      var notes := GetTextOr(d, "notes", "");
      if kind.Some? && date.Some? && number.Some? && model.Some? && price.Some?
        && status.Some? && notes.Some?
      then Some(ServiceRecord(kind.value, date.value, number.value, model.value,
                              price.value, status.value, notes.value))
      else None
  }

  /** Reading back a written service record yields the same record. */
  lemma ServiceDictRoundTrip(s: ServiceRecord)
    ensures ServiceFromDict(ServiceToDict(s)) == Some(s)
  {
  }

  /** A complete dictionary that reads as a service record is exactly what
      writing that record produces. */
  lemma ServiceDictFaithful(d: Dict)
    requires d.Keys == ServiceFields
    requires ServiceFromDict(d).Some?
    ensures ServiceToDict(ServiceFromDict(d).value) == d
  {
    var e := ServiceToDict(ServiceFromDict(d).value);
    assert forall k :: k in ServiceFields ==> e[k] == d[k];
  }

  // ---------------------------------------------------------------------
  // Whole collections (`[x.to_dict() for x in xs]`, `[from_dict(d) for d in ds]`)
  // ---------------------------------------------------------------------

  function EncodeCars(cs: seq<Car>): (ds: seq<Dict>)
    ensures |ds| == |cs|
    ensures forall i :: 0 <= i < |cs| ==> ds[i] == CarToDict(cs[i])
  {
    if |cs| == 0 then [] else [CarToDict(cs[0])] + EncodeCars(cs[1..])
  }

  /** Decodes every dictionary; one that does not decode fails the whole list,
      as the exception does in the list comprehension. */
  function DecodeCars(ds: seq<Dict>): (r: Option<seq<Car>>)
    ensures r.None? <==> exists i :: 0 <= i < |ds| && CarFromDict(ds[i]).None?
    ensures r.Some? ==> |r.value| == |ds|
    ensures r.Some? ==> forall i :: 0 <= i < |ds| ==> CarFromDict(ds[i]) == Some(r.value[i])
  {
    if |ds| == 0 then Some([])
    else
      match (CarFromDict(ds[0]), DecodeCars(ds[1..]))
      case (Some(c), Some(rest)) => Some([c] + rest)
      case _ => None
  }

  /** Writing the cars and reading them back reproduces them, in order. */
  lemma CarsRoundTrip(cs: seq<Car>)
    ensures DecodeCars(EncodeCars(cs)) == Some(cs)
  {
    var ds := EncodeCars(cs);
    forall i | 0 <= i < |ds|
      ensures CarFromDict(ds[i]) == Some(cs[i])
    {
      CarDictRoundTrip(cs[i]);
    }
    var r := DecodeCars(ds);
    assert r.Some? && |r.value| == |cs|;
    assert forall i :: 0 <= i < |cs| ==> r.value[i] == cs[i] by {
      forall i | 0 <= i < |cs| ensures r.value[i] == cs[i] {
        assert CarFromDict(ds[i]) == Some(r.value[i]);
      }
    }
    assert r.value == cs;
  }

  function EncodeServices(ss: seq<ServiceRecord>): (ds: seq<Dict>)
    ensures |ds| == |ss|
    ensures forall i :: 0 <= i < |ss| ==> ds[i] == ServiceToDict(ss[i])
  {
    if |ss| == 0 then [] else [ServiceToDict(ss[0])] + EncodeServices(ss[1..])
  }

  /** Decodes every dictionary; one that does not decode fails the whole list. */
  function DecodeServices(ds: seq<Dict>): (r: Option<seq<ServiceRecord>>)
    ensures r.None? <==> exists i :: 0 <= i < |ds| && ServiceFromDict(ds[i]).None?
    ensures r.Some? ==> |r.value| == |ds|
    ensures r.Some? ==> forall i :: 0 <= i < |ds| ==> ServiceFromDict(ds[i]) == Some(r.value[i])
  {
    if |ds| == 0 then Some([])
    else
      match (ServiceFromDict(ds[0]), DecodeServices(ds[1..]))
      case (Some(s), Some(rest)) => Some([s] + rest)
      case _ => None
  }

  /** Writing the service records and reading them back reproduces them, in order. */
  lemma ServicesRoundTrip(ss: seq<ServiceRecord>)
    ensures DecodeServices(EncodeServices(ss)) == Some(ss)
  {
    var ds := EncodeServices(ss);
    forall i | 0 <= i < |ds|
      ensures ServiceFromDict(ds[i]) == Some(ss[i])
    {
      ServiceDictRoundTrip(ss[i]);
    }
    var r := DecodeServices(ds);
    assert r.Some? && |r.value| == |ss|;
    assert forall i :: 0 <= i < |ss| ==> r.value[i] == ss[i] by {
      forall i | 0 <= i < |ss| ensures r.value[i] == ss[i] {
        assert ServiceFromDict(ds[i]) == Some(r.value[i]);
      }
    }
    assert r.value == ss;
  }
}

=== FILE: results.dfy ===
/** Optional values and success/failure results used by the record store. */
module Results {

  /** An optional value; Python's `None` is `None` here. */
  datatype Option<+T> = None | Some(value: T)

  /** The outcome of a command: a value, or the kind of error it reported. */
  datatype Result<+T, +E> = Ok(value: T) | Err(error: E)
}

=== FILE: scenarios.dfy ===
/** Worked examples of the record store, stated as lemmas over concrete
    answers: normalising and validating car numbers, registering and
    looking up ABC-1234, booking for an unregistered car, and ordering a
    car's history. */
module Scenarios {
  import opened Results
  import opened Seqs
  import opened Ascii
  import opened Records
  import opened Inputs
  import opened RecordStore
  import opened History

  const Form: RegistrationForm := RegistrationForm("ABC-1234", "Corolla", "Toyota", "2020", "Red")

  /** "---" has no letter or digit and is rejected. */
  lemma DashesRejected()
    ensures !ValidCarNumber("---")
  {
    ValidCarNumberIff("---");
  }

  /** "ABC-1234" is accepted. */
  lemma PlateAccepted()
    ensures ValidCarNumber("ABC-1234")
  {
    assert RemoveSeparators("ABC-1234") == "ABC1234";
  }

  /** A word without surrounding blanks is left as it is by `strip()`. */
  lemma StripUnpadded(s: string)
    requires |s| > 0 && !IsSpace(s[0]) && !IsSpace(s[|s| - 1])
    ensures Strip(s) == s
  {
    assert LeadingSpaces(s) == 0;
    assert s[0..] == s;
    assert TrailingStart(s) == |s|;
  }

  /** `strip()` removes the blanks around a padded answer. */
  lemma StripPadded()
    ensures Strip(" abc-1234 ") == "abc-1234"
  {
    var padded := " abc-1234 ";
    assert LeadingSpaces(padded[1..]) == 0;
    assert LeadingSpaces(padded) == 1;
    var t := padded[1..];
    assert t[..8] == "abc-1234";
    assert TrailingStart(t[..8]) == 8;
    assert TrailingStart(t) == 8;
  }

  /** `upper()` capitalises the letters and keeps the rest. */
  lemma UpperExample()
    ensures Upper("abc-1234") == "ABC-1234"
    ensures Upper("ABC-1234") == "ABC-1234"
  {
    var u := Upper("abc-1234");
    assert |u| == 8;
    assert u[0] == 'A' && u[1] == 'B' && u[2] == 'C' && u[3] == '-';
    assert u[4] == '1' && u[5] == '2' && u[6] == '3' && u[7] == '4';
    var v := Upper("ABC-1234");
    assert v[0] == 'A' && v[1] == 'B' && v[2] == 'C' && v[3] == '-';
    assert v[4] == '1' && v[5] == '2' && v[6] == '3' && v[7] == '4';
  }

  /** A padded lower-case answer and the plain upper-case one name the
      same number. */
  lemma NormalizeExamples()
    ensures NormalizeCarNumber("ABC-1234") == "ABC-1234"
    ensures NormalizeCarNumber(" abc-1234 ") == "ABC-1234"
  {
    StripUnpadded("ABC-1234");
    StripPadded();
    UpperExample();
  }

  /** Registering ABC-1234 in an empty store succeeds and stores the
      number in upper case. */
  lemma RegisterExample(today: int, owner: string)
    ensures var r := RegisterCar(EmptyStore, today, owner, Form);
      r.reply.Ok? && r.reply.value.carNumber == "ABC-1234"
  {
    NormalizeExamples();
    PlateAccepted();
  }

  /** After registering ABC-1234, looking up " abc-1234 " finds it. */
  lemma RegisterThenLookUp(today: int, owner: string)
    ensures var r := RegisterCar(EmptyStore, today, owner, Form);
      && CheckCarDetails(r.store, " abc-1234 ").Some?
      && CheckCarDetails(r.store, " abc-1234 ").value.car == r.reply.value
  {
    RegisterExample(today, owner);
    NormalizeExamples();
    RegisteredCarIsFound(EmptyStore, today, owner, Form, " abc-1234 ");
  }

  /** "ABC1234" is already in normal form. */
  lemma PlainPlateNormal()
    ensures NormalizeCarNumber("ABC1234") == "ABC1234"
  {
    var plain := "ABC1234";
    StripUnpadded(plain);
    assert Upper(plain) == plain by {
      assert forall i :: 0 <= i < |plain| ==> UpperChar(plain[i]) == plain[i];
    }
  }

  /** "ABC1234" is a valid car number. */
  lemma PlainPlateAccepted()
    ensures ValidCarNumber("ABC1234")
  {
    assert RemoveSeparators("ABC1234") == "ABC1234";
  }

  /** Registration does not remove separators before the duplicate check:
      after ABC-1234, the number ABC1234 registers as a second car. */
  lemma SeparatorsDistinguishCars(today: int, owner: string)
    ensures var first := RegisterCar(EmptyStore, today, owner, Form);
      var second := RegisterCar(first.store, today, owner, Form.(carNumber := "ABC1234"));
      second.reply.Ok? && |second.store.cars| == 2
  {
    RegisterExample(today, owner);
    NormalizeExamples();
    PlainPlateNormal();
    PlainPlateAccepted();
    assert !SameNumber("ABC1234", "ABC-1234") by {
      assert |Lower("ABC1234")| != |Lower("ABC-1234")|;
    }
    DistinctRegistrationAccepted(EmptyStore, today, owner, Form, today, owner, Form.(carNumber := "ABC1234"));
  }

  /** Booking for a car that is not registered fails and stores nothing. */
  lemma BookingUnregisteredFails(today: int, choice: int, answer: string, notes: string)
    ensures var r := BookService(EmptyStore, today, "XYZ-0000", choice, answer, notes);
      r.reply == Err(CarNotRegistered) && r.store == EmptyStore
  {
  }

  /** Three records of one number are all of that number's records. */
  lemma AllOfOneCar(r1: ServiceRecord, r2: ServiceRecord, r3: ServiceRecord, n: string)
    requires r1.carNumber == r2.carNumber == r3.carNumber == n
    ensures ServicesFor([r1, r2, r3], n) == [r1, r2, r3]
  {
    assert [r1, r2, r3] == [r1] + [r2, r3] && [r2, r3] == [r2] + [r3];
    FilterAppend([r1], [r2, r3], NumberIs(n));
    FilterAppend([r2], [r3], NumberIs(n));
    assert Filter([r3], NumberIs(n)) == [r3];
  }

  /** Moving the last of three records of distinct days to the front keeps
      the records of every day. */
  lemma RotationKeepsDays(r1: ServiceRecord, r2: ServiceRecord, r3: ServiceRecord, day: int)
    requires r3.serviceDate != r1.serviceDate && r3.serviceDate != r2.serviceDate
    ensures OnDate([r3, r1, r2], day) == OnDate([r1, r2, r3], day)
  {
    assert [r1, r2, r3] == [r1] + [r2, r3] && [r2, r3] == [r2] + [r3];
    assert [r3, r1, r2] == [r3] + [r1, r2] && [r1, r2] == [r1] + [r2];
    OnDateCons(r1, [r2, r3], day);
    OnDateCons(r2, [r3], day);
    OnDateCons(r3, [r1, r2], day);
    OnDateCons(r1, [r2], day);
    OnDateCons(r3, [], day);
    OnDateCons(r2, [], day);
  }

  /** Three services of one car, booked 10, 40 and 5 days ago in that
      order, are listed 5, 10, 40 days ago. */
  lemma HistoryExample(cars: seq<Car>, rawNumber: string, today: int,
                       r1: ServiceRecord, r2: ServiceRecord, r3: ServiceRecord)
    requires r1.carNumber == r2.carNumber == r3.carNumber == NormalizeCarNumber(rawNumber)
    requires r1.serviceDate == today - 10 && r2.serviceDate == today - 40 && r3.serviceDate == today - 5
    ensures ViewServiceHistory(Store(cars, [r1, r2, r3]), rawNumber).records == [r3, r1, r2]
  {
    AllOfOneCar(r1, r2, r3, NormalizeCarNumber(rawNumber));
    forall day
      ensures OnDate([r3, r1, r2], day) == OnDate([r1, r2, r3], day)
    {
      RotationKeepsDays(r1, r2, r3, day);
    }
    HistoryIsStableSort(Store(cars, [r1, r2, r3]), rawNumber, [r3, r1, r2]);
  }
}

=== FILE: seqs.dfy ===
/** Order-preserving filtering of sequences, the model of Python's
    `[x for x in xs if p(x)]` list comprehensions. */
module Seqs {

  /** The elements of `xs` that satisfy `p`, in their original order. */
  function Filter<T(==)>(xs: seq<T>, p: T -> bool): (r: seq<T>)
    ensures |r| <= |xs|
  {
    if |xs| == 0 then []
    else (if p(xs[0]) then [xs[0]] else []) + Filter(xs[1..], p)
  }

  /** The filter keeps exactly the elements that satisfy the predicate. */
  lemma {:induction false} FilterMembers<T>(xs: seq<T>, p: T -> bool)
    ensures forall i :: 0 <= i < |Filter(xs, p)| ==> Filter(xs, p)[i] in xs && p(Filter(xs, p)[i])
    ensures forall i :: 0 <= i < |xs| && p(xs[i]) ==> xs[i] in Filter(xs, p)
  {
    if |xs| > 0 {
      FilterMembers(xs[1..], p);
      assert xs == [xs[0]] + xs[1..];
    }
  }

  /** Filtering distributes over concatenation. */
  lemma {:induction false} FilterAppend<T>(a: seq<T>, b: seq<T>, p: T -> bool)
    ensures Filter(a + b, p) == Filter(a, p) + Filter(b, p)
  {
    if |a| == 0 {
      assert a + b == b;
    } else {
      var head := if p(a[0]) then [a[0]] else [];
      assert (a + b)[0] == a[0];
      assert (a + b)[1..] == a[1..] + b;
      FilterAppend(a[1..], b, p);
      assert Filter(a + b, p) == head + Filter(a[1..] + b, p);
      assert Filter(a, p) == head + Filter(a[1..], p);
    }
  }

  /** Filtering a sequence extended by one element. */
  lemma FilterSnoc<T>(xs: seq<T>, x: T, p: T -> bool)
    ensures Filter(xs + [x], p) == Filter(xs, p) + (if p(x) then [x] else [])
  {
    FilterAppend(xs, [x], p);
  }

  /** A filter whose predicate no element satisfies is empty. */
  lemma FilterNone<T>(xs: seq<T>, p: T -> bool)
    requires forall i :: 0 <= i < |xs| ==> !p(xs[i])
    ensures Filter(xs, p) == []
  {
    FilterMembers(xs, p);
  }

  /** A filter is non-empty exactly when some element satisfies the predicate. */
  lemma FilterNonEmpty<T>(xs: seq<T>, p: T -> bool)
    ensures |Filter(xs, p)| > 0 <==> exists i :: 0 <= i < |xs| && p(xs[i])
  {
    FilterMembers(xs, p);
    if |Filter(xs, p)| > 0 {
      var x := Filter(xs, p)[0];
      var i :| 0 <= i < |xs| && xs[i] == x;
      assert p(xs[i]);
    }
  }

  /** The positions of the elements that satisfy `p`. */
  function IndicesWhere<T>(xs: seq<T>, p: T -> bool): set<int> {
    set k | 0 <= k < |xs| && p(xs[k])
  }

  /** The filter has one element per position that satisfies `p`. */
  lemma {:induction false} FilterLength<T>(xs: seq<T>, p: T -> bool)
    ensures |Filter(xs, p)| == |IndicesWhere(xs, p)|
    decreases |xs|
  {
    if |xs| > 0 {
      var init, last := xs[..|xs| - 1], xs[|xs| - 1];
      assert xs == init + [last];
      FilterLength(init, p);
      FilterSnoc(init, last, p);
      var before := IndicesWhere(init, p);
      assert |xs| - 1 !in before;
      if p(last) {
        assert IndicesWhere(xs, p) == before + {|xs| - 1};
      } else {
        assert IndicesWhere(xs, p) == before;
      }
    }
  }
}

=== FILE: statistics.dfy ===
/** `show_statistics`: the counts of cars and services, the revenue, the
    most popular service type and the number of services of the last
    week, over the whole store. */
module Statistics {
  import opened Results
  import opened Seqs
  import opened Catalog
  import opened Records
  import opened RecordStore

  function TypeIs(name: string): ServiceRecord -> bool {
    (s: ServiceRecord) => s.serviceType == name
  }

  /** How many records are of the service type `name`. */
  function TypeCount(services: seq<ServiceRecord>, name: string): nat {
    |Filter(services, TypeIs(name))|
  }

  /** `service_counts`, built record by record: each record adds one to the
      entry of its service type, creating it at 0 when absent. */
  function CountTable(services: seq<ServiceRecord>): map<string, nat> {
    if |services| == 0 then map[]
    else
      var table := CountTable(services[..|services| - 1]);
      var name := services[|services| - 1].serviceType;
      table[name := (if name in table then table[name] else 0) + 1]
  }

  /** The service types that occur in `services`. */
  function TypesIn(services: seq<ServiceRecord>): set<string> {
    set k | 0 <= k < |services| :: services[k].serviceType
  }

  /** One more record adds its type to the types that occur. */
  lemma TypesInSnoc(init: seq<ServiceRecord>, last: ServiceRecord)
    ensures TypesIn(init + [last]) == TypesIn(init) + {last.serviceType}
  {
    var all := init + [last];
    forall t | t in TypesIn(all)
      ensures t in TypesIn(init) + {last.serviceType}
    {
      var k :| 0 <= k < |all| && all[k].serviceType == t;
      if k < |init| {
        assert init[k] == all[k];
      }
    }
    forall t | t in TypesIn(init)
      ensures t in TypesIn(all)
    {
      var k :| 0 <= k < |init| && init[k].serviceType == t;
      assert all[k] == init[k];
    }
    assert all[|init|] == last;
  }

  /** The table has an entry for exactly the service types that occur. */
  lemma {:induction false} CountTableKeys(services: seq<ServiceRecord>)
    ensures CountTable(services).Keys == TypesIn(services)
    decreases |services|
  {
    if |services| > 0 {
      var init, last := services[..|services| - 1], services[|services| - 1];
      assert services == init + [last];
      CountTableKeys(init);
      TypesInSnoc(init, last);
    }
  }

  /** Each entry of the table is the number of records of its type, and a
      type without an entry has no records. */
  lemma {:induction false} CountTableCounts(services: seq<ServiceRecord>, name: string)
    ensures TypeCount(services, name) == (if name in CountTable(services) then CountTable(services)[name] else 0)
    decreases |services|
  {
    if |services| == 0 {
      assert Filter(services, TypeIs(name)) == [];
    } else {
      var init, last := services[..|services| - 1], services[|services| - 1];
      assert services == init + [last];
      CountTableCounts(init, name);
      FilterSnoc(init, last, TypeIs(name));
    }
  }

  /** The most popular service type and its count. */
  datatype Popular = Popular(name: string, count: nat)

  /** How many records share the service type of record `k`. */
  function Popularity(services: seq<ServiceRecord>, k: int): nat
    requires 0 <= k < |services|
  {
    TypeCount(services, services[k].serviceType)
  }

  /** The popularity of every record, in record order. */
  function Popularities(services: seq<ServiceRecord>): (counts: seq<nat>)
    ensures |counts| == |services|
    ensures forall k :: 0 <= k < |counts| ==> counts[k] == Popularity(services, k)
  {
    seq(|services|, k requires 0 <= k < |services| => Popularity(services, k))
  }

  /** The position of the first largest element: `max` over a sequence,
      which keeps the first of equal maxima. */
  method FirstMaximum(xs: seq<nat>) returns (best: nat)
    requires |xs| > 0
    ensures best < |xs|
    ensures forall k :: 0 <= k < |xs| ==> xs[k] <= xs[best]
    ensures forall k :: 0 <= k < best ==> xs[k] < xs[best]
  {
    best := 0;
    var i := 1;
    while i < |xs|
      invariant 1 <= i <= |xs|
      invariant best < i
      invariant forall k :: 0 <= k < i ==> xs[k] <= xs[best]
      invariant forall k :: 0 <= k < best ==> xs[k] < xs[best]
    {
      if xs[i] > xs[best] {
        best := i;
      }
      i := i + 1;
    }
  }

  /** `max(service_counts.items(), key=lambda x: x[1])`. The dictionary
      lists types in order of first occurrence and `max` keeps the first
      maximum, so the winner is the type of the first record whose type
      count is maximal; scanning the records in order with a strict
      comparison finds it. */
  method MostPopular(services: seq<ServiceRecord>) returns (r: Option<Popular>)
    ensures r.None? <==> |services| == 0
    ensures r.Some? ==> r.value.count == TypeCount(services, r.value.name)
    ensures r.Some? ==> forall k :: 0 <= k < |services| ==> Popularity(services, k) <= r.value.count
    ensures r.Some? ==> exists j :: (0 <= j < |services| && services[j].serviceType == r.value.name
      && forall k :: 0 <= k < j ==> Popularity(services, k) < r.value.count)
  {
    if |services| == 0 {
      return None;
    }
    var counts := Popularities(services);
    var best := FirstMaximum(counts);
    var bestCount := counts[best];
    r := Some(Popular(services[best].serviceType, bestCount));
    assert 0 <= best < |services| && services[best].serviceType == r.value.name
      && forall k :: 0 <= k < best ==> Popularity(services, k) < r.value.count;
  }

  /** In terms of `service_counts`: the winner has an entry, its count is
      that entry, and no entry is larger. */
  lemma MostPopularInTable(services: seq<ServiceRecord>, p: Popular)
    requires p.count == TypeCount(services, p.name)
    requires forall k :: 0 <= k < |services| ==> Popularity(services, k) <= p.count
    requires exists j :: 0 <= j < |services| && services[j].serviceType == p.name
    ensures p.name in CountTable(services) && p.count == CountTable(services)[p.name]
    ensures forall name :: name in CountTable(services) ==> CountTable(services)[name] <= p.count
  {
    CountTableKeys(services);
    CountTableCounts(services, p.name);
    forall name | name in CountTable(services)
      ensures CountTable(services)[name] <= p.count
    {
      CountTableCounts(services, name);
      var k :| 0 <= k < |services| && services[k].serviceType == name;
      assert Popularity(services, k) <= p.count;
    }
  }

  /** "This week" reaches back seven days, both ends included. */
  const WeekDays: int := 7

  function InLastWeek(today: int): ServiceRecord -> bool {
    (s: ServiceRecord) => today - s.serviceDate <= WeekDays
  }

  /** The number of records at most seven days old; future-dated records
      count too. */
  function ThisWeek(services: seq<ServiceRecord>, today: int): (n: nat)
    ensures n == |set k | 0 <= k < |services| && today - services[k].serviceDate <= WeekDays|
  {
    FilterLength(services, InLastWeek(today));
    assert IndicesWhere(services, InLastWeek(today))
      == set k | 0 <= k < |services| && today - services[k].serviceDate <= WeekDays;
    |Filter(services, InLastWeek(today))|
  }

  /** What `show_statistics` prints. `revenue` and `mostPopular` are shown
      only when there are services. */
  datatype Snapshot = Snapshot(
    totalCars: nat,
    totalServices: nat,
    revenue: Option<int>,
    mostPopular: Option<Popular>,
    thisWeek: nat)

  /** `show_statistics` */
  method ShowStatistics(store: Store, today: int) returns (s: Snapshot)
    ensures s.totalCars == |store.cars| && s.totalServices == |store.services|
    ensures s.revenue.None? <==> |store.services| == 0
    ensures s.revenue.Some? ==> s.revenue.value == TotalPrice(store.services)
    ensures s.mostPopular.None? <==> |store.services| == 0
    ensures s.mostPopular.Some? ==> s.mostPopular.value.name in CountTable(store.services)
    ensures s.mostPopular.Some? ==> s.mostPopular.value.count == CountTable(store.services)[s.mostPopular.value.name]
    ensures s.mostPopular.Some? ==> forall name :: name in CountTable(store.services) ==>
      CountTable(store.services)[name] <= s.mostPopular.value.count
    ensures s.thisWeek == |set k | 0 <= k < |store.services| && today - store.services[k].serviceDate <= WeekDays|
  {
    var revenue: Option<int> := None;
    var popular: Option<Popular> := None;
    if |store.services| > 0 {
      revenue := Some(TotalPrice(store.services));
      popular := MostPopular(store.services);
      MostPopularInTable(store.services, popular.value);
    }
    s := Snapshot(|store.cars|, |store.services|, revenue, popular, ThisWeek(store.services, today));
  }

  // ---------------------------------------------------------------------
  // Revenue
  // ---------------------------------------------------------------------

  /** The revenue the records of `services` earn from the catalog entries
      `kinds`: for each entry, its count times its price. */
  function CatalogRevenue(services: seq<ServiceRecord>, kinds: seq<ServiceType>): int {
    if |kinds| == 0 then 0
    else TypeCount(services, kinds[0].Name()) * kinds[0].Price() + CatalogRevenue(services, kinds[1..])
  }

  /** The sum of the prices of the entries of `kinds` named `name`. */
  function PriceOfName(name: string, kinds: seq<ServiceType>): int {
    if |kinds| == 0 then 0
    else (if kinds[0].Name() == name then kinds[0].Price() else 0) + PriceOfName(name, kinds[1..])
  }

  /** One more record adds one to the count of its own type only. */
  lemma TypeCountCons(x: ServiceRecord, rest: seq<ServiceRecord>, name: string)
    ensures TypeCount([x] + rest, name) == TypeCount(rest, name) + (if x.serviceType == name then 1 else 0)
  {
    FilterAppend([x], rest, TypeIs(name));
  }

  /** One more record adds its price to the revenue of its own type only. */
  lemma EntryRevenueCons(x: ServiceRecord, rest: seq<ServiceRecord>, name: string, price: int)
    ensures TypeCount([x] + rest, name) * price
      == TypeCount(rest, name) * price + (if x.serviceType == name then price else 0)
  {
    TypeCountCons(x, rest, name);
    var c := TypeCount(rest, name);
    if x.serviceType == name {
      assert (c + 1) * price == c * price + price;
    }
  }

  /** One more record adds the price of its catalog entries to the revenue. */
  lemma {:induction false} CatalogRevenueCons(x: ServiceRecord, rest: seq<ServiceRecord>, kinds: seq<ServiceType>)
    ensures CatalogRevenue([x] + rest, kinds) == CatalogRevenue(rest, kinds) + PriceOfName(x.serviceType, kinds)
  {
    if |kinds| > 0 {
      EntryRevenueCons(x, rest, kinds[0].Name(), kinds[0].Price());
      CatalogRevenueCons(x, rest, kinds[1..]);
    }
  }

  /** No records earn nothing. */
  lemma {:induction false} CatalogRevenueOfNothing(kinds: seq<ServiceType>)
    ensures CatalogRevenue([], kinds) == 0
  {
    if |kinds| > 0 {
      CatalogRevenueOfNothing(kinds[1..]);
    }
  }

  /** No entry of `kinds` is named `name`: nothing is added. */
  lemma {:induction false} PriceOfAbsentName(name: string, kinds: seq<ServiceType>)
    requires forall i :: 0 <= i < |kinds| ==> kinds[i].Name() != name
    ensures PriceOfName(name, kinds) == 0
  {
    if |kinds| > 0 {
      PriceOfAbsentName(name, kinds[1..]);
    }
  }

  /** Among entries with distinct names, a name picks out its entry's price. */
  lemma {:induction false} PriceOfUniqueName(name: string, kinds: seq<ServiceType>, k: int)
    requires forall i, j :: 0 <= i < j < |kinds| ==> kinds[i].Name() != kinds[j].Name()
    requires 0 <= k < |kinds| && kinds[k].Name() == name
    ensures PriceOfName(name, kinds) == kinds[k].Price()
  {
    if k == 0 {
      PriceOfAbsentName(name, kinds[1..]);
    } else {
      PriceOfUniqueName(name, kinds[1..], k - 1);
    }
  }

  /** A catalog entry's name picks out exactly its own price. */
  lemma PriceOfCatalogEntry(name: string, price: int)
    requires IsCatalogEntry(name, price)
    ensures PriceOfName(name, Services) == price
  {
    var k :| 0 <= k < |Services| && Services[k].Name() == name && Services[k].Price() == price;
    CatalogWellFormed();
    PriceOfUniqueName(name, Services, k);
  }

  /** When every record is priced from the catalog, the revenue is the sum,
      over the catalog, of each service's count times its price. */
  lemma {:induction false} RevenueByCatalog(services: seq<ServiceRecord>)
    requires RecordsFromCatalog(services)
    ensures TotalPrice(services) == CatalogRevenue(services, Services)
  {
    if |services| == 0 {
      CatalogRevenueOfNothing(Services);
    } else {
      var x, rest := services[0], services[1..];
      assert services == [x] + rest;
      assert RecordsFromCatalog(rest) by {
        forall k | 0 <= k < |rest|
          ensures IsCatalogEntry(rest[k].serviceType, rest[k].price)
        {
          assert rest[k] == services[k + 1];
        }
      }
      RevenueByCatalog(rest);
      CatalogRevenueCons(x, rest, Services);
      PriceOfCatalogEntry(x.serviceType, x.price);
    }
  }

  /** Three oil changes earn exactly 135.00. */
  lemma ThreeOilChanges(a: ServiceRecord, b: ServiceRecord, c: ServiceRecord)
    requires a.price == b.price == c.price == OilChange.Price()
    ensures TotalPrice([a, b, c]) == 13500
  {
    assert [a, b, c][1..] == [b, c] && [b, c][1..] == [c] && [c][1..] == [];
    assert TotalPrice([c]) == c.price;
    assert TotalPrice([b, c]) == b.price + c.price;
  }

  // ---------------------------------------------------------------------
  // Effect of the commands
  // ---------------------------------------------------------------------

  /** A successful booking adds its price to the revenue, one to the count
      of its service type, and one to the services of the week; the
      record count grows by one. */
  lemma BookingUpdatesStatistics(store: Store, today: int, rawNumber: string, choice: int,
                                 answer: string, rawNotes: string)
    requires BookService(store, today, rawNumber, choice, answer, rawNotes).reply.Ok?
    ensures var r := BookService(store, today, rawNumber, choice, answer, rawNotes);
      var rec := r.reply.value.record;
      && |r.store.services| == |store.services| + 1
      && TotalPrice(r.store.services) == TotalPrice(store.services) + Services[choice - 1].Price()
      && TypeCount(r.store.services, Services[choice - 1].Name())
           == TypeCount(store.services, Services[choice - 1].Name()) + 1
      && ThisWeek(r.store.services, today) == ThisWeek(store.services, today) + 1
  {
    var r := BookService(store, today, rawNumber, choice, answer, rawNotes);
    var rec := r.reply.value.record;
    TotalPriceAppend(store.services, [rec]);
    assert TotalPrice([rec]) == rec.price;
    FilterSnoc(store.services, rec, TypeIs(rec.serviceType));
    FilterSnoc(store.services, rec, InLastWeek(today));
  }
}

=== FILE: store.dfy ===
/** The in-memory record store of `SmartCarCare`: the two append-only
    sequences `cars` and `services`, the case-insensitive lookup, and the
    two commands that change them, registration and booking.

    Every command is a function from the store and the user's (raw)
    answers to a `Step`: the store afterwards and the reply the user
    sees. "Today" is a day number passed in by the caller. */
module RecordStore {
  import opened Results
  import opened Ascii
  import opened Seqs
  import opened Catalog
  import opened Records
  import opened Inputs

  datatype Store = Store(cars: seq<Car>, services: seq<ServiceRecord>)

  /** The store of a first run, when no data file exists yet. */
  const EmptyStore: Store := Store([], [])

  /** What a command can report instead of a result. */
  datatype StoreError =
    | InvalidCarNumber
    | CarAlreadyRegistered
    | CarNotRegistered
    | InvalidServiceSelection
    | BookingDeclined

  /** The store after a command, and what the command reports. */
  datatype Step<T> = Step(store: Store, reply: Result<T, StoreError>)

  /** The answers to the registration prompts, as typed. */
  datatype RegistrationForm = RegistrationForm(
    carNumber: string,
    model: string,
    make: string,
    year: string,
    color: string)

  /** A stored booking, and whether the recent-duplicate advisory was shown. */
  datatype Booking = Booking(record: ServiceRecord, advisoryRaised: bool)

  /** Car numbers are compared ignoring case (`a.lower() == b.lower()`). */
  predicate SameNumber(a: string, b: string) {
    Lower(a) == Lower(b)
  }

  // ---------------------------------------------------------------------
  // Lookup
  // ---------------------------------------------------------------------

  /** The index of the first car at or after `k` whose number matches
      `query`, or `|cars|` when there is none. */
  function FirstMatchFrom(cars: seq<Car>, query: string, k: nat): (i: nat)
    requires k <= |cars|
    ensures k <= i <= |cars|
    ensures forall j :: k <= j < i ==> !SameNumber(cars[j].carNumber, query)
    ensures i < |cars| ==> SameNumber(cars[i].carNumber, query)
    decreases |cars| - k
  {
    if k == |cars| then k
    else if SameNumber(cars[k].carNumber, query) then k
    else FirstMatchFrom(cars, query, k + 1)
  }

  /** Car `i` is the first one whose number matches `query`. */
  predicate FirstMatchAt(cars: seq<Car>, query: string, i: int) {
    && 0 <= i < |cars|
    && SameNumber(cars[i].carNumber, query)
    && forall j :: 0 <= j < i ==> !SameNumber(cars[j].carNumber, query)
  }

  /** `_find_car_by_number`: the first car whose number equals `query`
      ignoring case, or `None`. */
  function FindCar(cars: seq<Car>, query: string): (r: Option<Car>)
    ensures r.None? <==> forall i :: 0 <= i < |cars| ==> !SameNumber(cars[i].carNumber, query)
    ensures r.Some? ==> exists i :: FirstMatchAt(cars, query, i) && cars[i] == r.value
  {
    var i := FirstMatchFrom(cars, query, 0);
    if i < |cars| then
      assert FirstMatchAt(cars, query, i);
      Some(cars[i])
    else None
  }

  // ---------------------------------------------------------------------
  // Registration
  // ---------------------------------------------------------------------

  /** The car `register_car` builds from the answers. */
  function NewCar(today: int, owner: string, form: RegistrationForm): Car {
    Car(
      ownerName := owner,
      registrationDate := today,
      carNumber := NormalizeCarNumber(form.carNumber),
      modelNumber := Strip(form.model),
      make := Strip(form.make),
      year := ParseYear(Strip(form.year)),
      color := Strip(form.color))
  }

  /** `register_car`: rejects a malformed number, then a number already
      registered in any case; otherwise appends the new car, registered
      today, and leaves the service records alone. */
  function RegisterCar(store: Store, today: int, owner: string, form: RegistrationForm): (r: Step<Car>)
    ensures r.reply == Err(InvalidCarNumber)
      <==> !ValidCarNumber(NormalizeCarNumber(form.carNumber))
    ensures r.reply == Err(CarAlreadyRegistered)
      <==> (ValidCarNumber(NormalizeCarNumber(form.carNumber))
            && exists i :: 0 <= i < |store.cars|
                 && SameNumber(store.cars[i].carNumber, NormalizeCarNumber(form.carNumber)))
    ensures r.reply.Ok?
      <==> (ValidCarNumber(NormalizeCarNumber(form.carNumber))
            && forall i :: 0 <= i < |store.cars|
                 ==> !SameNumber(store.cars[i].carNumber, NormalizeCarNumber(form.carNumber)))
    ensures r.reply.Err? ==> r.store == store
    ensures r.reply.Ok? ==> r.store == Store(store.cars + [r.reply.value], store.services)
    ensures r.reply.Ok? ==> forall i :: 0 <= i < |store.cars| ==>
      !SameNumber(store.cars[i].carNumber, r.reply.value.carNumber)
    ensures r.reply.Ok? ==>
      && r.reply.value.carNumber == NormalizeCarNumber(form.carNumber)
      && r.reply.value.registrationDate == today
      && r.reply.value.ownerName == owner
      && r.reply.value.modelNumber == Strip(form.model)
      && r.reply.value.make == Strip(form.make)
      && r.reply.value.year == ParseYear(Strip(form.year))
      && r.reply.value.color == Strip(form.color)
  {
    var number := NormalizeCarNumber(form.carNumber);
    if !ValidCarNumber(number) then Step(store, Err(InvalidCarNumber))
    else if FindCar(store.cars, number).Some? then Step(store, Err(CarAlreadyRegistered))
    else
      var car := NewCar(today, owner, form);
      Step(Store(store.cars + [car], store.services), Ok(car))
  }

  // ---------------------------------------------------------------------
  // Booking
  // ---------------------------------------------------------------------

  /** The advisory window of `book_service`, in days. */
  const RecentDays: int := 30

  /** The records `book_service` lists as recent duplicates: same car
      number (exactly), same service name, and fewer than 30 days old.
      A record dated today, or in the future, is recent. */
  function RecentDuplicates(services: seq<ServiceRecord>, number: string, name: string, today: int): seq<ServiceRecord> {
    Filter(services, DuplicateOf(number, name, today))
  }

  function DuplicateOf(number: string, name: string, today: int): ServiceRecord -> bool {
    (s: ServiceRecord) => s.carNumber == number && s.serviceType == name && today - s.serviceDate < RecentDays
  }

  /** Some record of car `number` is of service `name` and fewer than 30
      days old: the condition of the advisory. */
  predicate RecentlyBooked(services: seq<ServiceRecord>, number: string, name: string, today: int) {
    exists k :: (0 <= k < |services|
      && services[k].carNumber == number
      && services[k].serviceType == name
      && today - services[k].serviceDate < RecentDays)
  }

  /** Some record is a recent duplicate exactly when the list of recent
      duplicates is non-empty. */
  lemma RecentDuplicatesNonEmpty(services: seq<ServiceRecord>, number: string, name: string, today: int)
    ensures |RecentDuplicates(services, number, name, today)| > 0 <==> RecentlyBooked(services, number, name, today)
  {
    var d := RecentDuplicates(services, number, name, today);
    FilterMembers(services, DuplicateOf(number, name, today));
    if |d| > 0 {
      var k :| 0 <= k < |services| && services[k] == d[0];
    }
  }

  /** The record `book_service` builds for `car` and catalog entry `kind`. */
  function NewServiceRecord(kind: ServiceType, today: int, number: string, car: Car, notes: string): ServiceRecord {
    ServiceRecord(
      serviceType := kind.Name(),
      serviceDate := today,
      carNumber := number,
      modelNumber := car.modelNumber,
      price := kind.Price(),
      status := Completed,
      notes := notes)
  }

  /** `book_service` once the car is found: the menu choice, the advisory
      and the new record. */
  function BookForCar(store: Store, today: int, number: string, car: Car, choice: int, answer: string, notes: string): (r: Step<Booking>)
    ensures r.reply.Err? ==> r.store == store
    ensures r.reply != Err(CarNotRegistered)
    ensures r.reply == Err(InvalidServiceSelection) <==> !(1 <= choice <= |Services|)
    ensures r.reply.Ok? <==>
      && 1 <= choice <= |Services|
      && !(RecentlyBooked(store.services, number, Services[choice - 1].Name(), today) && !Confirms(answer))
    ensures 1 <= choice <= |Services| ==>
      (r.reply == Err(BookingDeclined) <==>
        RecentlyBooked(store.services, number, Services[choice - 1].Name(), today) && !Confirms(answer))
    ensures r.reply.Ok? ==>
      && 1 <= choice <= |Services|
      && r.reply.value.record == NewServiceRecord(Services[choice - 1], today, number, car, notes)
      && r.reply.value.advisoryRaised == RecentlyBooked(store.services, number, Services[choice - 1].Name(), today)
      && r.store == Store(store.cars, store.services + [r.reply.value.record])
  {
    var index := choice - 1;
    if !(0 <= index < |Services|) then Step(store, Err(InvalidServiceSelection))
    else
      var kind := Services[index];
      RecentDuplicatesNonEmpty(store.services, number, kind.Name(), today);
      var advisory := |RecentDuplicates(store.services, number, kind.Name(), today)| > 0;
      if advisory && !Confirms(answer) then Step(store, Err(BookingDeclined))
      else
        var record := NewServiceRecord(kind, today, number, car, notes);
        Step(Store(store.cars, store.services + [record]), Ok(Booking(record, advisory)))
  }

  /** `book_service`. `choice` is the 1-based menu number the user typed;
      `answer` is the reply to the advisory, consulted only when the
      advisory is raised. */
  function BookService(store: Store, today: int, rawNumber: string, choice: int, answer: string, rawNotes: string): (r: Step<Booking>)
    ensures r.reply.Err? ==> r.store == store
    ensures r.reply == Err(CarNotRegistered)
      <==> forall i :: 0 <= i < |store.cars| ==> !SameNumber(store.cars[i].carNumber, NormalizeCarNumber(rawNumber))
    ensures r.reply == Err(InvalidServiceSelection)
      <==> FindCar(store.cars, NormalizeCarNumber(rawNumber)).Some? && !(1 <= choice <= |Services|)
    ensures r.reply == Err(BookingDeclined) ==> !Confirms(answer)
    ensures r.reply.Ok? <==>
      && FindCar(store.cars, NormalizeCarNumber(rawNumber)).Some?
      && 1 <= choice <= |Services|
      && !(RecentlyBooked(store.services, NormalizeCarNumber(rawNumber), Services[choice - 1].Name(), today)
           && !Confirms(answer))
    ensures r.reply.Ok? ==>
      && FindCar(store.cars, NormalizeCarNumber(rawNumber)).Some?
      && 1 <= choice <= |Services|
      && r.store == Store(store.cars, store.services + [r.reply.value.record])
    ensures r.reply.Ok? ==>
      && r.reply.value.record.serviceType == Services[choice - 1].Name()
      && r.reply.value.record.price == Services[choice - 1].Price()
      && r.reply.value.record.modelNumber == FindCar(store.cars, NormalizeCarNumber(rawNumber)).value.modelNumber
      && r.reply.value.record.carNumber == NormalizeCarNumber(rawNumber)
      && r.reply.value.record.serviceDate == today
      && r.reply.value.record.status == Completed
      && r.reply.value.record.notes == Strip(rawNotes)
    ensures FindCar(store.cars, NormalizeCarNumber(rawNumber)).Some? && 1 <= choice <= |Services| ==>
      var recent := RecentlyBooked(store.services, NormalizeCarNumber(rawNumber), Services[choice - 1].Name(), today);
      && (r.reply == Err(BookingDeclined) <==> recent && !Confirms(answer))
      && (r.reply.Ok? ==> r.reply.value.advisoryRaised == recent)
  {
    var number := NormalizeCarNumber(rawNumber);
    match FindCar(store.cars, number)
    case None => Step(store, Err(CarNotRegistered))
    case Some(car) => BookForCar(store, today, number, car, choice, answer, Strip(rawNotes))
  }

  // ---------------------------------------------------------------------
  // Invariants the commands keep
  // ---------------------------------------------------------------------

  /** No two cars share a car number ignoring case. */
  predicate UniqueNumbers(cars: seq<Car>) {
    forall i, j :: 0 <= i < j < |cars| ==> !SameNumber(cars[i].carNumber, cars[j].carNumber)
  }

  /** Every stored car number is in upper case, as registration stores it. */
  predicate NumbersUpperCase(cars: seq<Car>) {
    forall i :: 0 <= i < |cars| ==> Upper(cars[i].carNumber) == cars[i].carNumber
  }

  /** Every service record carries the exact number and the model of a
      registered car. */
  predicate RecordsNameCars(store: Store) {
    forall k :: 0 <= k < |store.services| ==> NamesCar(store.cars, store.services[k])
  }

  /** `rec` carries the exact number and the model of one of `cars`. */
  predicate NamesCar(cars: seq<Car>, rec: ServiceRecord) {
    exists i :: 0 <= i < |cars| && cars[i].carNumber == rec.carNumber && cars[i].modelNumber == rec.modelNumber
  }

  /** Every service record carries the name and price of a catalog entry. */
  predicate RecordsFromCatalog(services: seq<ServiceRecord>) {
    forall k :: 0 <= k < |services| ==> IsCatalogEntry(services[k].serviceType, services[k].price)
  }

  /** The invariant of a store built by the commands from an empty one. */
  predicate Consistent(store: Store) {
    && UniqueNumbers(store.cars)
    && NumbersUpperCase(store.cars)
    && RecordsNameCars(store)
    && RecordsFromCatalog(store.services)
  }

  /** With unique numbers, the car `FindCar` returns is the only match. */
  lemma FindCarUnique(cars: seq<Car>, query: string)
    requires UniqueNumbers(cars)
    requires FindCar(cars, query).Some?
    ensures forall i :: 0 <= i < |cars| && SameNumber(cars[i].carNumber, query) ==>
      cars[i] == FindCar(cars, query).value
  {
    var i :| FirstMatchAt(cars, query, i) && cars[i] == FindCar(cars, query).value;
    forall j | 0 <= j < |cars| && SameNumber(cars[j].carNumber, query)
      ensures cars[j] == cars[i]
    {
      if j != i {
        assert i < j;
        assert SameNumber(cars[i].carNumber, cars[j].carNumber);
      }
    }
  }

  /** In a consistent store, the car found for a normalised number has
      exactly that number, so records booked under it name the car exactly. */
  lemma FoundCarHasQueriedNumber(store: Store, rawNumber: string)
    requires NumbersUpperCase(store.cars)
    requires FindCar(store.cars, NormalizeCarNumber(rawNumber)).Some?
    ensures FindCar(store.cars, NormalizeCarNumber(rawNumber)).value.carNumber == NormalizeCarNumber(rawNumber)
    ensures FindCar(store.cars, NormalizeCarNumber(rawNumber)).value in store.cars
  {
    var n := NormalizeCarNumber(rawNumber);
    var i :| FirstMatchAt(store.cars, n, i) && store.cars[i] == FindCar(store.cars, n).value;
    UpperCaseInjective(store.cars[i].carNumber, n);
  }

  /** Appending a car whose number no stored car shares keeps numbers unique. */
  lemma AppendKeepsUnique(cars: seq<Car>, c: Car)
    requires UniqueNumbers(cars)
    requires forall i :: 0 <= i < |cars| ==> !SameNumber(cars[i].carNumber, c.carNumber)
    ensures UniqueNumbers(cars + [c])
  {
    var all := cars + [c];
    forall i, j | 0 <= i < j < |all|
      ensures !SameNumber(all[i].carNumber, all[j].carNumber)
    {
      assert all[i] == cars[i];
      if j < |cars| {
        assert all[j] == cars[j];
      }
    }
  }

  /** Appending a car with an upper-case number keeps numbers upper case. */
  lemma AppendKeepsUpperCase(cars: seq<Car>, c: Car)
    requires NumbersUpperCase(cars)
    requires Upper(c.carNumber) == c.carNumber
    ensures NumbersUpperCase(cars + [c])
  {
    var all := cars + [c];
    forall i | 0 <= i < |all|
      ensures Upper(all[i].carNumber) == all[i].carNumber
    {
      if i < |cars| {
        assert all[i] == cars[i];
      }
    }
  }

  /** Appending a car keeps every record naming a registered car. */
  lemma AppendCarKeepsNaming(cars: seq<Car>, services: seq<ServiceRecord>, c: Car)
    requires RecordsNameCars(Store(cars, services))
    ensures RecordsNameCars(Store(cars + [c], services))
  {
    var all := cars + [c];
    forall k | 0 <= k < |services|
      ensures NamesCar(all, services[k])
    {
      assert NamesCar(cars, services[k]);
      var i :| 0 <= i < |cars|
        && cars[i].carNumber == services[k].carNumber
        && cars[i].modelNumber == services[k].modelNumber;
      assert all[i] == cars[i];
    }
  }

  /** Registration keeps a consistent store consistent: in particular car
      numbers stay unique ignoring case. */
  lemma RegisterPreservesConsistency(store: Store, today: int, owner: string, form: RegistrationForm)
    requires Consistent(store)
    ensures Consistent(RegisterCar(store, today, owner, form).store)
  {
    var r := RegisterCar(store, today, owner, form);
    if r.reply.Ok? {
      var c := r.reply.value;
      AppendKeepsUnique(store.cars, c);
      AppendCarKeepsNaming(store.cars, store.services, c);
      AppendKeepsUpperCase(store.cars, c);
      assert r.store == Store(store.cars + [c], store.services);
    }
  }

  /** Booking keeps a consistent store consistent: the new record names its
      car exactly and is priced from the catalog. */
  lemma BookPreservesConsistency(store: Store, today: int, rawNumber: string, choice: int, answer: string, rawNotes: string)
    requires Consistent(store)
    ensures Consistent(BookService(store, today, rawNumber, choice, answer, rawNotes).store)
  {
    var r := BookService(store, today, rawNumber, choice, answer, rawNotes);
    if r.reply.Ok? {
      var services := r.store.services;
      var rec := r.reply.value.record;
      assert services == store.services + [rec];
      FoundCarHasQueriedNumber(store, rawNumber);
      var car := FindCar(store.cars, NormalizeCarNumber(rawNumber)).value;
      var w :| 0 <= w < |store.cars| && store.cars[w] == car;
      assert r.store.cars == store.cars;
      forall k | 0 <= k < |services|
        ensures NamesCar(store.cars, services[k])
      {
        if k == |store.services| {
          assert services[k] == rec;
          assert store.cars[w] == car;
        } else {
          assert services[k] == store.services[k];
        }
      }
      forall k | 0 <= k < |services|
        ensures IsCatalogEntry(services[k].serviceType, services[k].price)
      {
        if k == |store.services| {
          assert services[k] == rec;
          assert Services[choice - 1].Name() == rec.serviceType && Services[choice - 1].Price() == rec.price;
        } else {
          assert services[k] == store.services[k];
        }
      }
    }
  }

  /** Once a number is registered, registering it again, in any case and
      with any surrounding whitespace, fails as a duplicate. */
  lemma SecondRegistrationRejected(store: Store, today: int, owner: string, form: RegistrationForm,
                                    later: int, owner2: string, form2: RegistrationForm)
    requires RegisterCar(store, today, owner, form).reply.Ok?
    requires SameNumber(NormalizeCarNumber(form2.carNumber), NormalizeCarNumber(form.carNumber))
    ensures RegisterCar(RegisterCar(store, today, owner, form).store, later, owner2, form2).reply
      == Err(CarAlreadyRegistered)
  {
    var s := RegisterCar(store, today, owner, form).store;
    var n1 := NormalizeCarNumber(form.carNumber);
    var n2 := NormalizeCarNumber(form2.carNumber);
    ValidCarNumberIgnoresCase(n1);
    ValidCarNumberIgnoresCase(n2);
    assert ValidCarNumber(n2);
    assert s.cars[|s.cars| - 1].carNumber == n1;
  }

  /** Conversely, a valid number that matches no stored car ignoring case,
      the one just registered included, registers as a further car. */
  lemma DistinctRegistrationAccepted(store: Store, today: int, owner: string, form: RegistrationForm,
                                     later: int, owner2: string, form2: RegistrationForm)
    requires RegisterCar(store, today, owner, form).reply.Ok?
    requires ValidCarNumber(NormalizeCarNumber(form2.carNumber))
    requires forall i :: 0 <= i < |store.cars| ==>
      !SameNumber(store.cars[i].carNumber, NormalizeCarNumber(form2.carNumber))
    requires !SameNumber(NormalizeCarNumber(form2.carNumber), NormalizeCarNumber(form.carNumber))
    ensures var s := RegisterCar(store, today, owner, form).store;
      && RegisterCar(s, later, owner2, form2).reply.Ok?
      && |RegisterCar(s, later, owner2, form2).store.cars| == |store.cars| + 2
  {
    var first := RegisterCar(store, today, owner, form);
    var n2 := NormalizeCarNumber(form2.carNumber);
    AppendKeepsNoMatch(store.cars, first.reply.value, n2);
  }

  /** Appending a car whose number differs from `n` ignoring case keeps
      `n` unmatched. */
  lemma AppendKeepsNoMatch(cars: seq<Car>, c: Car, n: string)
    requires forall i :: 0 <= i < |cars| ==> !SameNumber(cars[i].carNumber, n)
    requires !SameNumber(n, c.carNumber)
    ensures forall i :: 0 <= i < |cars + [c]| ==> !SameNumber((cars + [c])[i].carNumber, n)
  {
    forall i | 0 <= i < |cars + [c]|
      ensures !SameNumber((cars + [c])[i].carNumber, n)
    {
      if i < |cars| {
        assert (cars + [c])[i] == cars[i];
      } else {
        assert (cars + [c])[i] == c;
      }
    }
  }

  /** Booking the same service for the same car again on the same day
      raises the advisory: "y" (or "Y") books a second record, any other
      answer books nothing. */
  lemma RebookingSameDayRaisesAdvisory(store: Store, today: int, rawNumber: string, choice: int,
                                       answer: string, rawNotes: string, answer2: string, rawNotes2: string)
    requires BookService(store, today, rawNumber, choice, answer, rawNotes).reply.Ok?
    ensures var s1 := BookService(store, today, rawNumber, choice, answer, rawNotes).store;
      var again := BookService(s1, today, rawNumber, choice, answer2, rawNotes2);
      && (Confirms(answer2) ==>
            again.reply.Ok? && again.reply.value.advisoryRaised && |again.store.services| == |store.services| + 2)
      && (!Confirms(answer2) ==> again.reply == Err(BookingDeclined) && again.store == s1)
  {
    var first := BookService(store, today, rawNumber, choice, answer, rawNotes);
    var s1 := first.store;
    var k := |store.services|;
    assert s1.services[k] == first.reply.value.record;
    assert s1.cars == store.cars;
  }
}
